=== FILE: README.md ===
# imgbased volumes and package persistence, in Dafny

imgbased builds a host's root file system from immutable image layers.
Directories that must keep writable data across upgrades become separate
thin LVM volumes, mounted over their original paths by systemd units. This
project models two parts of it:

- **The volume manager** `Volumes` (src/imgbased/plugins/volume.py):
  - the name codec that turns a mount path into an LV and unit name, and an LV name back into a path;
  - the mount-unit template and the unit file's path;
  - `volumes`, `is_volume`, `create`, `attach`, `detach` and `remove`.

  Each operation is a pure transition over an abstract host. The host holds:
  - the volume group;
  - the LV inventory with its tags;
  - the set of existing directories;
  - the unit files;
  - the enabled and the started units;
  - an ordered log of every external call.

  A failed `assert` becomes a `Failed` outcome carrying the host as the failure left it.
- **The dnf plugin** `ImgbasedPersist` (src/plugin-dnf/imgbased-persist.py): its configuration, its two checks and its `transaction` hook. The hook is a pure function from the persist directory and the install and remove sets to the new directory and the boot-setup flag. The directory is modelled as a set of file names.

Modules:

| module | file | contents |
|---|---|---|
| `Strings` | strings.dfy | Python's `str.replace`, `strip`, `lstrip`, `rstrip`, `split`, `join` and `os.path.basename`, with their Python semantics |
| `NameCodec` | name_codec.dfy | `_volname`, the decoding in `volumes`, and the exact round-trip characterisation |
| `MountUnit` | mount_unit.dfy | `_mountfile`, the unit name, the template, and a `Key=value` reader |
| `Volumes` | volumes.dfy | the host state and the four operations |
| `VolumeLifecycle` | volume_lifecycle.dfy | properties relating several calls, and the orphan-LV finding |
| `Persist` | persist.dfy | the dnf plugin |

The codec is not a bijection. `volumes()` and `is_volume` can only find a volume again if its path survives encoding and decoding. Some absolute paths built from letters, digits, dashes and separators do not:
- `/a/-b` encodes to `a---b`, which decodes to `/a-/b`.
- The model follows the code.
- `NameCodec.RoundTripIff` states exactly which paths survive. A path survives when it is absolute, has no further separators at either end, and has no separator followed by a separator or a dash.

## Model

| member | source | states |
|---|---|---|
| Strings.RStrip | src/imgbased/plugins/volume.py:78 | `rstrip('/')` yields a prefix of the input, everything it dropped is a separator, and it does not end in a separator |
| Strings.LStrip | src/imgbased/plugins/volume.py:81 | `lstrip` yields a suffix of the input, everything it dropped is the stripped character, and it does not start with it |
| Strings.Strip | src/imgbased/plugins/volume.py:81 | `strip('/')` yields a result no longer than its input with no separator at either end |
| Strings.StripIsSlice | src/imgbased/plugins/volume.py:81 | `strip` returns the slice of its input between a leading and a trailing run of the stripped character, dropping nothing else |
| Strings.StripAfterRStrip | src/imgbased/plugins/volume.py:77-81 | stripping trailing separators first changes neither `rstrip` nor `strip` |
| Strings.StripKeepsOut | src/imgbased/plugins/volume.py:81 | `strip` introduces no character that was not in its input |
| Strings.ReplaceCharRemoves | src/imgbased/plugins/volume.py:81 | replacing a one-character pattern leaves none of it behind unless the replacement holds it |
| Strings.ReplaceCharConcat | src/imgbased/plugins/volume.py:74-81 | a one-character `replace` distributes over concatenation, so with `ReplaceCharSingle` it maps each character on its own; this is how the dash and separator replacements of lines 74 and 81 behave |
| Strings.ReplaceCharSingle | src/imgbased/plugins/volume.py:74-81 | a one-character `replace` turns the pattern character into the replacement and keeps any other character |
| Strings.Basename | src/plugin-dnf/imgbased-persist.py:63-64 | `os.path.basename` is the separator-free suffix that follows the last separator |
| Strings.BasenameAfterSeparator | src/plugin-dnf/imgbased-persist.py:63-64 | the basename of `dir/file` is `file` whenever `file` has no separator |
| Strings.Split | src/plugin-dnf/imgbased-persist.py:43-44 | `split` always yields at least one part |
| Strings.SplitJoin | src/plugin-dnf/imgbased-persist.py:43-44 | splitting joined separator-free parts gives the parts back |
| Strings.JoinSplit | src/plugin-dnf/imgbased-persist.py:43-44 | joining the parts of a split gives the string back |
| Strings.SplitPartsKeepOut | src/plugin-dnf/imgbased-persist.py:43-44 | no part of a split holds the separator |
| NameCodec.VolName | src/imgbased/plugins/volume.py:80-81 | the LV name never contains a separator, and it is the per-character escape of the stripped path |
| NameCodec.Escape | src/imgbased/plugins/volume.py:81 | the reference escape has no separator and is at least as long as its input |
| NameCodec.ReplacementsAreEscape | src/imgbased/plugins/volume.py:81 | the two chained `replace` calls compute the per-character escape |
| NameCodec.Decode | src/imgbased/plugins/volume.py:74 | every decoded name is an absolute path, and after its leading separator it never holds two separators in a row |
| NameCodec.UnescapeIsUnescaped | src/imgbased/plugins/volume.py:74 | on a separator-free name the two chained `replace` calls, the second one with the two-character pattern `//`, decode left to right: a doubled dash becomes a dash, a lone dash a separator, every other character stays |
| NameCodec.EscapeUnescaped | src/imgbased/plugins/volume.py:74-81 | encoding the decoding of a separator-free LV name gives the name back |
| NameCodec.DecodeInjective | src/imgbased/plugins/volume.py:74 | two separator-free LV names that decode to the same path are the same name |
| NameCodec.DecodeRoundTrip | src/imgbased/plugins/volume.py:74-81 | an LV name with no separator and no leading dash, whose decoding does not end in a separator, is the LV name of its own decoding |
| NameCodec.CollapseNoDoubleSeparator | src/imgbased/plugins/volume.py:74 | the second replacement leaves no two separators in a row, and begins with a separator only where its input had a lone one |
| NameCodec.DashesBecomeSeparators | src/imgbased/plugins/volume.py:74 | the decode's first step turns each escaped dash into two separators and each escaped separator back into one |
| NameCodec.UnescapeEscapeIdentity | src/imgbased/plugins/volume.py:74-81 | decoding undoes encoding of a stripped path iff no separator in it is followed by a separator or a dash; decoding never lengthens it |
| NameCodec.CollapseIdentity | src/imgbased/plugins/volume.py:74 | collapsing separator pairs restores the path iff no separator is followed by a separator or a dash |
| NameCodec.RoundTripIff | src/imgbased/plugins/volume.py:74-81 | `Decode(VolName(p)) == p` iff `p` is absolute, has no further separators at either end, and has no separator followed by a separator or a dash |
| NameCodec.PlainPathRoundTrips | src/imgbased/plugins/volume.py:74-81 | every absolute path without empty segments, trailing separator or dash at a segment edge survives the round trip |
| NameCodec.VolNameIgnoresTrailingSeparators | src/imgbased/plugins/volume.py:77-81 | trailing separators do not change the LV name |
| NameCodec.DashCollision | src/imgbased/plugins/volume.py:74-81 | `/a-/b` and `/a/-b` both encode to `a---b`, which decodes to `/a-/b` |
| NameCodec.EncodeDashBeforeSeparator | src/imgbased/plugins/volume.py:81 | `/a-/b` encodes to `a---b` |
| NameCodec.EncodeDashAfterSeparator | src/imgbased/plugins/volume.py:81 | `/a/-b` encodes to `a---b` |
| NameCodec.DecodeTripleDash | src/imgbased/plugins/volume.py:74 | `a---b` decodes to `/a-/b` |
| MountUnit.MountFile | src/imgbased/plugins/volume.py:83-85 | the unit file lies directly in `/etc/systemd/system`, with no further separator in its name |
| MountUnit.UnitName | src/imgbased/plugins/volume.py:134-135 | the unit name given to systemctl is the LV name with the `.mount` suffix |
| MountUnit.UnitLines | src/imgbased/plugins/volume.py:58-67 | the filled template's lines hold no line break unless one of the three fields brings it |
| MountUnit.MountUnitText | src/imgbased/plugins/volume.py:128-130 | the rendered unit ends with a line break, as the template does |
| MountUnit.MountUnitLines | src/imgbased/plugins/volume.py:58-67 | the filled template, cut at newlines, is exactly the template's lines when no field holds a newline |
| MountUnit.LookupFirst | src/imgbased/plugins/volume.py:58-67 | a key's value is read from the first line that carries the key |
| MountUnit.UnitLinesFields | src/imgbased/plugins/volume.py:58-67 | the template's lines answer What, Where and Options with the filled values, plus `SloppyOptions=yes` and `WantedBy=local-fs.target` |
| MountUnit.MountUnitFields | src/imgbased/plugins/volume.py:58-67 | reading the rendered unit back yields the device, mount point and options it was rendered with, plus the fixed marker and install target |
| Volumes.VolumePaths | src/imgbased/plugins/volume.py:72-75 | `volumes()` lists a path iff some tagged LV decodes to it, and lists no more entries than there are LVs |
| Volumes.VolumePathsAppend | src/imgbased/plugins/volume.py:72-75 | a new LV adds its decoded name to the end of the listing iff it is tagged, and leaves the rest in place |
| Volumes.ListedPathsAbsolute | src/imgbased/plugins/volume.py:72-75 | every path `volumes()` lists is absolute |
| Volumes.IsVolume | src/imgbased/plugins/volume.py:77-78 | only an absolute path can be a volume |
| Volumes.WithoutLv | src/imgbased/plugins/volume.py:117 | removing an LV by name keeps exactly the LVs of other names and leaves the inventory alone when no LV has that name |
| Volumes.Attach | src/imgbased/plugins/volume.py:121-140 | fails with nothing changed iff the path is not a volume. Otherwise: LVs kept; unit written with What = LV device, Where = path, Options = discard; unit enabled and started; other units untouched; calls write, reload, enable, start, listdir, in that order |
| Volumes.Detach | src/imgbased/plugins/volume.py:142-153 | fails with nothing changed iff the path is not a volume. Otherwise: LVs kept; the path stays a volume; unit file gone, unit disabled and stopped; other units untouched; calls disable, stop, remove file, reload, in that order |
| Volumes.Provision | src/imgbased/plugins/volume.py:93-104 | one new tagged LV named after the path; calls create, tag, mkfs, populate from `where/`, in that order; the path becomes a volume iff its name decodes back to it |
| Volumes.Create | src/imgbased/plugins/volume.py:87-107 | fails with nothing changed if the path is already a volume, is not absolute or is not a directory, and likewise if LVM refuses the LV name as invalid or taken. Completes iff those checks pass and the name decodes back to the path; otherwise, after the checks, it fails as `attach` does, with the LV made. On completion: one new tagged LV appended; the path attached with its unit written, enabled and started; the volume group, the directories and every other unit unchanged; provision calls then attach calls |
| Volumes.Remove | src/imgbased/plugins/volume.py:109-119 | fails with nothing changed if the path is not a volume. Otherwise it detaches first (unit gone, disabled, stopped). If LVM then finds no LV of the path's name it fails with `NoSuchLv`, leaving the detached host; `VolumeLifecycle.RemoveVolumeSucceeds` shows this cannot happen on a host whose LV names LVM accepts. On completion it removes exactly the LVs of the path's name, keeps the volume group and directories, and logs the detach calls then the LV removal |
| Volumes.CreateChecked | src/imgbased/plugins/volume.py:87-107 | the corrected `create`: every failure leaves the host untouched, and it completes iff the checks pass and the path survives the round trip |
| VolumeLifecycle.IsVolumeIgnoresTrailingSeparators | src/imgbased/plugins/volume.py:77-78 | `is_volume` ignores trailing separators and holds iff a tagged LV decodes to the stripped path |
| VolumeLifecycle.CreateNeedsRepresentablePath | src/imgbased/plugins/volume.py:87-107 | `create` completes iff its checks pass and the stripped path survives the round trip |
| VolumeLifecycle.CreateListsPathOnce | src/imgbased/plugins/volume.py:72-107 | after `create` the path is listed exactly once, at the end, and the rest of the listing is unchanged |
| VolumeLifecycle.CreateOnEmptyHost | src/imgbased/plugins/volume.py:87-107 | on a host without LVs, `create` of a representable directory leaves exactly one LV, and the listing is the path alone |
| VolumeLifecycle.CreateSeparatorsOnlyRefused | src/imgbased/plugins/volume.py:87-96 | a path of separators only, `/` included, gets the empty LV name, and `create` stops at LVM's refusal with nothing changed |
| VolumeLifecycle.CreateLeadingDashRefused | src/imgbased/plugins/volume.py:87-96 | a path whose first component starts with a dash gets an LV name starting with `--`, and `create` stops at LVM's refusal with nothing changed |
| VolumeLifecycle.VolumeLvNamedAfterPath | src/imgbased/plugins/volume.py:121-125 | on a host whose LV names LVM accepts, the tagged LV that makes a path a volume is named exactly after the path, so `attach` writes that LV's device |
| VolumeLifecycle.RemoveVolumeSucceeds | src/imgbased/plugins/volume.py:109-117 | on such a host `remove` of a volume finds the LV of the path's name after the detach and always completes |
| VolumeLifecycle.AttachThenDetach | src/imgbased/plugins/volume.py:121-153 | `attach` then `detach` leaves the path a volume and unmounted, keeps the LVs, and logs the attach calls then the detach calls |
| VolumeLifecycle.DetachTwice | src/imgbased/plugins/volume.py:142-153 | a second `detach` succeeds and changes nothing but the call log |
| VolumeLifecycle.CreateThenRemove | src/imgbased/plugins/volume.py:87-119 | `create` then `remove` succeeds, restores the LV inventory, leaves no LV of the path's name, and leaves the path neither a volume nor mounted |
| VolumeLifecycle.CreateThenRemoveUnits | src/imgbased/plugins/volume.py:87-119 | when the path had no unit file, `create` then `remove` also restores the unit files |
| VolumeLifecycle.WithoutLvAppend | src/imgbased/plugins/volume.py:117 | removing by name the only LV of that name, appended last, restores the earlier inventory |
| VolumeLifecycle.CreateLeavesOrphan | src/imgbased/plugins/volume.py:87-107 | as written, `create` on a path whose name does not decode back fails with "not a volume" only after the tagged LV exists; the LV is listed under a different path |
| VolumeLifecycle.CreateOrphanOnEmptyHost | src/imgbased/plugins/volume.py:87-107 | on a host without LVs, such a `create` fails and leaves one LV, listed only under the decoded name |
| VolumeLifecycle.CreateDashAfterSeparator | src/imgbased/plugins/volume.py:87-107 | creating `/a/-b` fails and leaves LV `a---b`; `/a-/b` is listed as a volume and `/a/-b` is not |
| VolumeLifecycle.DashAfterSeparatorName | src/imgbased/plugins/volume.py:74-81 | `/a/-b` is absolute without a trailing separator, encodes to `a---b`, a name LVM accepts, and decodes to `/a-/b` |
| VolumeLifecycle.CreateCheckedAgrees | src/imgbased/plugins/volume.py:87-107 | the corrected `create` leaves the host untouched on failure, and agrees with `create` wherever either completes |
| VolumeLifecycle.AttachUnitContents | src/imgbased/plugins/volume.py:121-130 | the unit `attach` writes reads back as What = the LV's device, Where = the path, Options = discard |
| VolumeLifecycle.VolNameKeepsOutNewline | src/imgbased/plugins/volume.py:81 | encoding introduces no newline |
| VolumeLifecycle.EscapeKeepsOut | src/imgbased/plugins/volume.py:81 | escaping introduces no character other than the dash |
| Persist.Configure | src/plugin-dnf/imgbased-persist.py:39-44 | each list is non-empty, holds no comma, and joins back to its option text |
| Persist.ExcludesAreWholeItems | src/plugin-dnf/imgbased-persist.py:46-47 | a package is excluded iff its name is one whole item of the `exclude_pkgs` list |
| Persist.BootsetupAreWholeItems | src/plugin-dnf/imgbased-persist.py:49-50 | a package asks for boot setup iff its name is one whole item of the `bootsetup_pkgs` list |
| Persist.RpmFileInPersistDir | src/plugin-dnf/imgbased-persist.py:71-74 | when no package field holds a separator, the removal's file name is separator-free and the deleted path lies directly in the persist directory |
| Persist.ConfigureRoundTrip | src/plugin-dnf/imgbased-persist.py:43-44 | any non-empty list of comma-free names is recovered from its joined option text |
| Persist.PersistInstalls | src/plugin-dnf/imgbased-persist.py:56-64 | the install loop adds exactly the basenames of the non-excluded package files. The boot-setup flag is raised iff some installed name is on the boot-setup list, excluded or not |
| Persist.UnpersistRemoves | src/plugin-dnf/imgbased-persist.py:69-77 | the removal loop deletes exactly the `name-v-r.a.rpm` files of the removed packages; a missing file is no error |
| Persist.Transaction | src/plugin-dnf/imgbased-persist.py:52-77 | files = (old + persisted) − unpersisted, where persisted are the basenames of the non-excluded installs and unpersisted the `name-v-r.a.rpm` names of the removals; bootsetup iff a bootsetup package is installed, excluded or not; the directory is created iff there are installs; consistency is kept; an empty install set adds nothing and asks no boot setup |
| Persist.TransactionFiles | src/plugin-dnf/imgbased-persist.py:57-77 | file by file: a new file comes from a non-excluded install; each non-excluded install's file is present unless a removal deleted it; no removed package's file is left; every other file is kept |
| Persist.PersistedCons | src/plugin-dnf/imgbased-persist.py:57-64 | the persisted set of a non-empty install list is the first package's contribution plus that of the rest |
| Persist.UnpersistedCons | src/plugin-dnf/imgbased-persist.py:70-71 | the unpersisted set of a non-empty remove list is the first file name plus that of the rest |
| Persist.NeedsBootsetupCons | src/plugin-dnf/imgbased-persist.py:57-59 | boot setup is needed iff the first install or one of the rest asks for it |
| Persist.RemovalIdempotent | src/plugin-dnf/imgbased-persist.py:69-77 | removing the same packages again changes nothing |
| Persist.OrderIrrelevant | src/plugin-dnf/imgbased-persist.py:52-77 | the outcome depends only on which packages are installed and removed, not on iteration order |
| Persist.InstallThenRemove | src/plugin-dnf/imgbased-persist.py:62-74 | a package whose file is `<cache>/name-v-r.a.rpm` is persisted under the name its removal deletes; install then remove leaves the directory without it and otherwise unchanged |

## Left out

- Argument parsing, `init_app` and the CLI dispatch (src/imgbased/plugins/volume.py:1-50) are outside the core.
- Logging at every step is left out.
- `mkfs` and the `rsync` population appear only as entries in the call log. The scoped mount has no entry of its own: it is folded into the `Populate` entry, whose target is the LV's device rather than the temporary mount point. The volume's contents are not modelled.
- `os.listdir(where)` after starting the unit appears only in the log; a failure of it is not modelled.
- The thin pool, `LVM.LV.find_by_tag` and `imgbase.lv(name).path` live in lvm.py, which is not part of this model. The inventory is a sequence in listing order, and the device path is assumed to be `/dev/<vg>/<lv>`.
- The host has one volume group, that of the thin pool, and the inventory is its LVs only. LV names are unique within a volume group, so `imgbase.lv(name)` names at most one LV. `Lv` carries no volume group, and tagged LVs in other volume groups, which `find_by_tag` would also list, are not modelled. On an inventory that broke name uniqueness, `Volumes.WithoutLv` would drop every LV of the name. `LvNameTaken` and `VolumeLifecycle.RemoveVolumeSucceeds` rest on the same assumption.
- LVM's own checks live in LVM, which is not part of this model. Its refusals to create an LV under an invalid name or an existing one, and to remove a missing one, are assumed. These are `InvalidLvName`, `LvNameTaken` and `NoSuchLv`.
- `Volumes.ValidLvName` keeps LVM's general name rule: not empty, not `.` or `..`, no leading dash, letters, digits and `.`, `_`, `+`, `-` only, at most 127 characters. LVM's reserved LV prefixes and suffixes (`snapshot`, `pvmove`, `_mlog`, `_tdata` and the like) are left out: a path whose name holds one would be refused by LVM and completes in the model.
- Failures of systemctl, of mkfs and of the copy are not modelled. An operation fails only at the source's `assert`s, at the LVM refusals above, or at the `attach` inside `create`.
- `File.write` and `File.remove` live in utils.py, which is not part of this model. The write overwrites; removing a missing unit file is assumed to succeed.
- Concurrency is left out; the manager assumes one caller at a time.
- The `unittype` parameter of `_mountfile` is always `mount` at its call sites and is fixed to it.
- `os.path.isdir` is the host's set of directories.
- Strings.Strip: its own contract states only that the result is no longer and has no stripped character at either end. That it is the slice between the two runs is the separate lemma `Strings.StripIsSlice`, because as a postcondition the existential makes every caller's proof too expensive.
- `read_config` and the dnf configuration file format are left out. `Persist.Configure` takes the two option strings.
- `shutil.copy2`, `os.makedirs` and the file contents are left out. The persist directory is its set of file names; a copy over an existing name replaces it.
- Failures of `copy2` and `makedirs` are left out; only the removal's swallowed exception is modelled (as "no change").
- `BootSetupHandler().setup()` is left out; the transaction returns whether it would be called.
- dnf's install and remove sets are sequences. `Persist.OrderIrrelevant` shows their order does not matter.
- The literal `create("/opt/app", …)` scenario is not stated on its own. `NameCodec.PlainPathRoundTrips` and `VolumeLifecycle.CreateOnEmptyHost` cover every path of that shape.

## Findings

| source | as written | input that shows it | evidently intended | confidence | as-written member | corrected member |
|---|---|---|---|---|---|---|
| src/imgbased/plugins/volume.py:87-107 | `create` checks the path, then creates, tags, formats and fills the LV before `attach` asserts `is_volume`. For a path whose LV name decodes to a different path, that assert fails, and a tagged LV is left behind that reads as another path. | `create("/a/-b", size)` on a host without LVs leaves LV `a---b`, listed as `/a-/b`. `/a/-b` is still not a volume, and `/a-/b` now is, though nobody created it | reject such a path before any side effect, so that a failed `create` leaves the host as it was | high (proved on the model; not executed) | VolumeLifecycle.CreateDashAfterSeparator | Volumes.CreateChecked |

=== FILE: mount_unit.dfy ===
/** The systemd mount unit `Volumes` writes for a volume: its file path
    (`_mountfile`), its unit name (`unitfile.basename()`) and its text
    (`mountfile_tmpl`), together with a reader for `Key=value` lines that the
    rendered text is proved to answer faithfully. */
module MountUnit {
  import opened Strings
  import opened NameCodec

  datatype Option<T> = None | Some(value: T)

  const UnitDir := "/etc/systemd/system"

  /** `_mountfile(where)`: the unit file lives directly in the systemd unit
      directory and is named after the encoded path. */
  function MountFile(where: string): (path: string)
    ensures StartsWith(path, UnitDir + "/")
    ensures '/' !in path[|UnitDir| + 1..]
  {
    var dir, file := UnitDir + "/", VolName(where) + ".mount";
    ConcatParts(dir, file);
    assert '/' !in file;
    assert UnitDir + "/" + VolName(where) + ".mount" == dir + file;
    dir + file
  }

  /** `unitfile.basename()`, the name systemctl is called with: the encoded
      path with the `.mount` suffix. */
  function UnitName(where: string): (unit: string)
    ensures unit == VolName(where) + ".mount"
  {
    var file := MountFile(where);
    assert file == UnitDir + "/" + (VolName(where) + ".mount");
    BasenameAfterSeparator(UnitDir, VolName(where) + ".mount");
    Basename(file)
  }

  /** The lines of `mountfile_tmpl` once `{what}`, `{where}` and `{options}`
      are filled in; the template ends with a newline, hence the last, empty
      line. Only the three fields can bring a line break into a line. */
  function UnitLines(what: string, where: string, options: string): (lines: seq<string>)
    ensures '\n' !in what && '\n' !in where && '\n' !in options ==>
              forall i :: 0 <= i < |lines| ==> '\n' !in lines[i]
  {
    ["# Created by imgbased",
     "[Mount]",
     "What=" + what,
     "Where=" + where,
     "Options=" + options,
     "SloppyOptions=yes",
     "",
     "[Install]",
     "WantedBy=local-fs.target",
     ""]
  }

  /** The template with the device, the mount point and the options filled
      in: the unit's lines joined by line breaks, ending in a line break as
      the template does. */
  function MountUnitText(what: string, where: string, options: string): (text: string)
    ensures |text| > 0 && text[|text| - 1] == '\n'
  {
    JoinEndsWithEmpty(UnitLines(what, where, options), '\n');
    Join(UnitLines(what, where, options), '\n')
  }

  // ---------------------------------------------------------------------------
  // Reading a unit back

  /** The value of the first line of the form `key=value`. */
  function Lookup(lines: seq<string>, key: string): Option<string>
    decreases |lines|
  {
    if lines == [] then None
    else if StartsWith(lines[0], key + "=") then Some(lines[0][|key| + 1..])
    else Lookup(lines[1..], key)
  }

  function Field(text: string, key: string): Option<string> {
    Lookup(Split(text, '\n'), key)
  }

  lemma MountUnitLines(what: string, where: string, options: string)
    requires '\n' !in what && '\n' !in where && '\n' !in options
    ensures Split(MountUnitText(what, where, options), '\n') == UnitLines(what, where, options)
  {
    SplitJoin(UnitLines(what, where, options), '\n');
  }

  /** `Lookup` answers with the first line carrying the key. */
  lemma {:induction false} LookupFirst(lines: seq<string>, key: string, k: nat)
    requires k < |lines| && StartsWith(lines[k], key + "=")
    requires forall j :: 0 <= j < k ==> !StartsWith(lines[j], key + "=")
    ensures Lookup(lines, key) == Some(lines[k][|key| + 1..])
    decreases k
  {
    if k > 0 {
      LookupFirst(lines[1..], key, k - 1);
    }
  }

  /** The template's lines carry the device under `What`, the mount point
      under `Where` and the options under `Options`, plus the fixed
      lenient-options marker and install target; no earlier line shadows any
      of them. */
  lemma UnitLinesFields(lines: seq<string>, what: string, where: string, options: string)
    requires lines == UnitLines(what, where, options)
    ensures Lookup(lines, "What") == Some(what)
    ensures Lookup(lines, "Where") == Some(where)
    ensures Lookup(lines, "Options") == Some(options)
    ensures Lookup(lines, "SloppyOptions") == Some("yes")
    ensures Lookup(lines, "WantedBy") == Some("local-fs.target")
  {
    WhatLine(lines, what, where, options);
    WhereLine(lines, what, where, options);
    OptionsLine(lines, what, where, options);
    SloppyOptionsLine(lines, what, where, options);
    WantedByLine(lines, what, where, options);
  }

  lemma WhatLine(lines: seq<string>, what: string, where: string, options: string)
    requires lines == UnitLines(what, where, options)
    ensures Lookup(lines, "What") == Some(what)
  {
    ConcatParts("What=", what);
    NotStartsWithAt(lines[0], "What=", 0);
    NotStartsWithAt(lines[1], "What=", 0);
    LookupFirst(lines, "What", 2);
  }

  lemma WhereLine(lines: seq<string>, what: string, where: string, options: string)
    requires lines == UnitLines(what, where, options)
    ensures Lookup(lines, "Where") == Some(where)
  {
    ConcatParts("Where=", where);
    NotStartsWithAt(lines[0], "Where=", 0);
    NotStartsWithAt(lines[1], "Where=", 0);
    assert lines[2][2] == 'a';
    NotStartsWithAt(lines[2], "Where=", 2);
    LookupFirst(lines, "Where", 3);
  }

  lemma OptionsLine(lines: seq<string>, what: string, where: string, options: string)
    requires lines == UnitLines(what, where, options)
    ensures Lookup(lines, "Options") == Some(options)
  {
    ConcatParts("Options=", options);
    forall j | 0 <= j < 4
      ensures !StartsWith(lines[j], "Options=")
    {
      NotStartsWithAt(lines[j], "Options=", 0);
    }
    LookupFirst(lines, "Options", 4);
  }

  lemma SloppyOptionsLine(lines: seq<string>, what: string, where: string, options: string)
    requires lines == UnitLines(what, where, options)
    ensures Lookup(lines, "SloppyOptions") == Some("yes")
  {
    forall j | 0 <= j < 5
      ensures !StartsWith(lines[j], "SloppyOptions=")
    {
      NotStartsWithAt(lines[j], "SloppyOptions=", 0);
    }
    LookupFirst(lines, "SloppyOptions", 5);
  }

  lemma WantedByLine(lines: seq<string>, what: string, where: string, options: string)
    requires lines == UnitLines(what, where, options)
    ensures Lookup(lines, "WantedBy") == Some("local-fs.target")
  {
    forall j | 0 <= j < 8
      ensures !StartsWith(lines[j], "WantedBy=")
    {
      if j == 2 || j == 3 {
        NotStartsWithAt(lines[j], "WantedBy=", 1);
      } else if j != 6 {
        NotStartsWithAt(lines[j], "WantedBy=", 0);
      }
    }
    assert lines[8][..|"WantedBy="|] == "WantedBy=";
    LookupFirst(lines, "WantedBy", 8);
  }

  /** Reading a rendered unit back yields exactly the device, the mount point
      and the options it was rendered with, plus the fixed lenient-options
      marker and install target of the template. */
  lemma MountUnitFields(text: string, what: string, where: string, options: string)
    requires text == MountUnitText(what, where, options)
    requires '\n' !in what && '\n' !in where && '\n' !in options
    ensures Field(text, "What") == Some(what)
    ensures Field(text, "Where") == Some(where)
    ensures Field(text, "Options") == Some(options)
    ensures Field(text, "SloppyOptions") == Some("yes")
    ensures Field(text, "WantedBy") == Some("local-fs.target")
  {
    MountUnitLines(what, where, options);
    UnitLinesFields(Split(text, '\n'), what, where, options);
  }
}

=== FILE: name_codec.dfy ===
/** The name codec of `Volumes` (src/imgbased/plugins/volume.py): `_volname`
    turns a mount path into an LVM and systemd safe name, and the list
    comprehension in `volumes` turns a tagged LV name back into a path.

    The pair is not a bijection. The main results are an exact description of
    the paths that survive the round trip (`RoundTripIff`) and a concrete
    collision (`DashCollision`). */
module NameCodec {
  import opened Strings

  // ---------------------------------------------------------------------------
  // Encoding

  /** `_volname(where)`: strip separators at both ends, double every dash,
      then turn every separator into a dash, in that order. */
  function VolName(path: string): (name: string)
    ensures '/' !in name
    ensures name == Escape(Strip(path, '/'))
  {
    var stripped := Strip(path, '/');
    ReplacementsAreEscape(stripped);
    Replace(Replace(stripped, "-", "--"), "/", "-")
  }

  /** What the encoding makes of one character of the stripped path. */
  function EscapeChar(x: char): string {
    if x == '-' then "--" else if x == '/' then "-" else [x]
  }

  /** Reference definition of the encoding: every character is escaped on its
      own, a dash into two dashes and a separator into one dash. */
  function Escape(s: string): (r: string)
    ensures '/' !in r
    ensures |r| >= |s|
    decreases |s|
  {
    if s == [] then [] else EscapeChar(s[0]) + Escape(s[1..])
  }

  /** The two chained `replace` calls of `_volname` compute `Escape`. */
  lemma {:induction false} ReplacementsAreEscape(s: string)
    ensures Replace(Replace(s, "-", "--"), "/", "-") == Escape(s)
    decreases |s|
  {
    if s != [] {
      var x, t := s[0], s[1..];
      assert s == [x] + t;
      ReplaceCharConcat([x], t, '-', "--");
      ReplaceCharSingle(x, '-', "--");
      var head := if x == '-' then "--" else [x];
      ReplaceCharConcat(head, Replace(t, "-", "--"), '/', "-");
      if x == '-' {
        assert head == ['-'] + ['-'];
        ReplaceCharConcat(['-'], ['-'], '/', "-");
        ReplaceCharSingle('-', '/', "-");
      } else {
        ReplaceCharSingle(x, '/', "-");
      }
      ReplacementsAreEscape(t);
    }
  }

  // ---------------------------------------------------------------------------
  // Decoding

  /** The decoding of `volumes` without its leading "/": every dash becomes a
      separator, then every (left-to-right, non-overlapping) pair of
      separators becomes a dash. */
  function Unescape(name: string): string {
    Replace(Replace(name, "-", "/"), "//", "-")
  }

  /** The path an LV name stands for, as `volumes()` reads it: a leading
      separator, then the name with every dash turned into a separator and
      every pair of separators so formed, taken from the left, turned back
      into one dash. */
  function Decode(name: string): (path: string)
    ensures |path| > 0 && path[0] == '/'
    ensures path[1..] == Unescape(name)
    ensures forall i :: 1 <= i < |path| - 1 ==> !(path[i] == '/' && path[i + 1] == '/')
  {
    var u := Collapse(Replace(name, "-", "/"));
    CollapseNoDoubleSeparator(Replace(name, "-", "/"));
    var path := "/" + u;
    assert forall i :: 1 <= i < |path| - 1 ==> path[i] == u[i - 1] && path[i + 1] == u[i];
    path
  }

  /** What the first decoding step makes of an encoded path: each dash of the
      original path has become two separators, and each separator is back. */
  function SeparatorPairs(s: string): string
    decreases |s|
  {
    if s == [] then [] else (if s[0] == '-' then "//" else [s[0]]) + SeparatorPairs(s[1..])
  }

  lemma {:induction false} DashesBecomeSeparators(s: string)
    ensures Replace(Escape(s), "-", "/") == SeparatorPairs(s)
    decreases |s|
  {
    if s != [] {
      var x, t := s[0], s[1..];
      ReplaceCharConcat(EscapeChar(x), Escape(t), '-', "/");
      if x == '-' {
        assert EscapeChar(x) == ['-'] + ['-'];
        ReplaceCharConcat(['-'], ['-'], '-', "/");
        ReplaceCharSingle('-', '-', "/");
      } else if x == '/' {
        ReplaceCharSingle('-', '-', "/");
      } else {
        ReplaceCharSingle(x, '-', "/");
      }
      DashesBecomeSeparators(t);
    }
  }

  /** The second decoding step: left-to-right pairs of separators become dashes. */
  function Collapse(x: string): string {
    Replace(x, "//", "-")
  }

  lemma UnescapeEscapeIsCollapse(s: string)
    ensures Unescape(Escape(s)) == Collapse(SeparatorPairs(s))
  {
    DashesBecomeSeparators(s);
  }

  lemma SeparatorPairsCons(x: char, t: string)
    ensures SeparatorPairs([x] + t) == (if x == '-' then "//" else [x]) + SeparatorPairs(t)
  {
    assert ([x] + t)[1..] == t;
  }

  /** How decoding an encoded path proceeds, one step at a time from the
      front. A separator followed by a dash or by a second separator is where
      information is lost. */
  lemma StepOther(x: char, t: string)
    requires x != '/'
    ensures Collapse(SeparatorPairs([x] + t)) == [x] + Collapse(SeparatorPairs(t))
  {
    SeparatorPairsCons(x, t);
    if x == '-' {
      ReplaceMatch("//", "-", SeparatorPairs(t));
    } else {
      NotStartsWithAt([x] + SeparatorPairs(t), "//", 0);
      ReplaceMiss(x, SeparatorPairs(t), "//", "-");
    }
  }

  lemma StepLoneSeparator()
    ensures Collapse(SeparatorPairs("/")) == "/"
  {
    SeparatorPairsCons('/', []);
  }

  lemma StepSeparatorKept(y: char, u: string)
    requires y != '/' && y != '-'
    ensures Collapse(SeparatorPairs(['/', y] + u)) == "/" + Collapse(SeparatorPairs([y] + u))
  {
    assert ['/', y] + u == [ '/' ] + ([y] + u);
    SeparatorPairsCons('/', [y] + u);
    SeparatorPairsCons(y, u);
    NotStartsWithAt(['/'] + SeparatorPairs([y] + u), "//", 1);
    ReplaceMiss('/', SeparatorPairs([y] + u), "//", "-");
  }

  lemma StepSeparatorDash(u: string)
    ensures Collapse(SeparatorPairs("/-" + u)) == "-" + Collapse(SeparatorPairs("/" + u))
  {
    assert "/-" + u == "/" + ("-" + u);
    SeparatorPairsCons('/', "-" + u);
    SeparatorPairsCons('-', u);
    SeparatorPairsCons('/', u);
    assert SeparatorPairs("/-" + u) == "//" + SeparatorPairs("/" + u);
    ReplaceMatch("//", "-", SeparatorPairs("/" + u));
  }

  lemma StepSeparatorPair(u: string)
    ensures Collapse(SeparatorPairs("//" + u)) == "-" + Collapse(SeparatorPairs(u))
  {
    assert "//" + u == "/" + ("/" + u);
    SeparatorPairsCons('/', "/" + u);
    SeparatorPairsCons('/', u);
    assert SeparatorPairs("//" + u) == "//" + SeparatorPairs(u);
    ReplaceMatch("//", "-", SeparatorPairs(u));
  }

  // ---------------------------------------------------------------------------
  // Decoding LV names

  /** Reference definition of the decoding of a separator-free name, read
      from the front: a doubled dash stands for a dash, a lone dash for a
      separator, and any other character for itself. */
  function Unescaped(name: string): string
    decreases |name|
  {
    if name == [] then []
    else if name[0] != '-' then [name[0]] + Unescaped(name[1..])
    else if |name| >= 2 && name[1] == '-' then "-" + Unescaped(name[2..])
    else "/" + Unescaped(name[1..])
  }

  /** A name without separators: the two replacements of the decoding agree
      with the reference decoding. */
  lemma {:induction false} UnescapeIsUnescaped(name: string)
    requires '/' !in name
    ensures Unescape(name) == Unescaped(name)
    decreases |name|
  {
    if name != [] {
      var x, t := name[0], name[1..];
      assert name == [x] + t;
      var seps := Replace(name, "-", "/");
      ReplaceCharConcat([x], t, '-', "/");
      ReplaceCharSingle(x, '-', "/");
      if x != '-' {
        assert seps == [x] + Replace(t, "-", "/");
        NotStartsWithAt(seps, "//", 0);
        ReplaceMiss(x, Replace(t, "-", "/"), "//", "-");
        UnescapeIsUnescaped(t);
      } else if |t| > 0 && t[0] == '-' {
        var u := t[1..];
        assert t == [t[0]] + u;
        ReplaceCharConcat([t[0]], u, '-', "/");
        ReplaceCharSingle(t[0], '-', "/");
        assert seps == "//" + Replace(u, "-", "/");
        ReplaceMatch("//", "-", Replace(u, "-", "/"));
        assert name[2..] == u;
        UnescapeIsUnescaped(u);
      } else {
        assert seps == "/" + Replace(t, "-", "/");
        if t != [] {
          var u := t[1..];
          assert t == [t[0]] + u;
          ReplaceCharConcat([t[0]], u, '-', "/");
          ReplaceCharSingle(t[0], '-', "/");
          NotStartsWithAt(seps, "//", 1);
        }
        ReplaceMiss('/', Replace(t, "-", "/"), "//", "-");
        UnescapeIsUnescaped(t);
      }
    }
  }

  lemma EscapeCons(x: char, s: string)
    ensures Escape([x] + s) == EscapeChar(x) + Escape(s)
  {
    assert ([x] + s)[1..] == s;
  }

  /** Encoding undoes the reference decoding of every separator-free name. */
  lemma {:induction false} EscapeUnescaped(name: string)
    requires '/' !in name
    ensures Escape(Unescaped(name)) == name
    decreases |name|
  {
    if name != [] {
      var x, t := name[0], name[1..];
      assert name == [x] + t && '/' !in t;
      if x != '-' {
        assert Unescaped(name) == [x] + Unescaped(t);
        assert EscapeChar(x) == [x];
        EscapeCons(x, Unescaped(t));
        EscapeUnescaped(t);
      } else if |t| > 0 && t[0] == '-' {
        var u := name[2..];
        assert t == [t[0]] + u && '/' !in u;
        assert Unescaped(name) == ['-'] + Unescaped(u);
        assert EscapeChar('-') == "--";
        EscapeCons('-', Unescaped(u));
        EscapeUnescaped(u);
        assert name == "--" + u;
      } else {
        assert Unescaped(name) == ['/'] + Unescaped(t);
        assert EscapeChar('/') == "-";
        EscapeCons('/', Unescaped(t));
        EscapeUnescaped(t);
      }
    }
  }

  /** Decoding loses nothing on LV names: two separator-free names that decode
      to the same path are the same name, so `volumes()` lists distinct LVs
      under distinct paths. */
  lemma DecodeInjective(a: string, b: string)
    requires '/' !in a && '/' !in b
    requires Decode(a) == Decode(b)
    ensures a == b
  {
    assert Unescape(a) == Decode(a)[1..] == Decode(b)[1..] == Unescape(b);
    UnescapeIsUnescaped(a);
    UnescapeIsUnescaped(b);
    EscapeUnescaped(a);
    EscapeUnescaped(b);
  }

  /** The reverse round trip that `attach` and `remove` rely on when they look
      up the LV of a path `is_volume` accepted: a separator-free name that
      does not start with a dash and whose path does not end in a separator
      is the encoding of its own decoding. */
  lemma DecodeRoundTrip(name: string)
    requires '/' !in name && name != [] && name[0] != '-'
    requires Decode(name)[|Decode(name)| - 1] != '/'
    ensures VolName(Decode(name)) == name
  {
    var path := Decode(name);
    var u := Unescape(name);
    UnescapeIsUnescaped(name);
    EscapeUnescaped(name);
    assert u == [name[0]] + Unescaped(name[1..]);
    assert path == "/" + u && u[0] != '/' && u[|u| - 1] != '/';
    StripNothing(u, '/');
    assert RStrip(path, '/') == path;
    assert LStrip(path, '/') == LStrip(u, '/');
  }

  /** The second replacement of the decoding leaves no two separators in a
      row, and starts with a separator only where the input had a lone one. */
  lemma {:induction false} CollapseNoDoubleSeparator(x: string)
    ensures forall i :: 0 <= i < |Collapse(x)| - 1 ==> !(Collapse(x)[i] == '/' && Collapse(x)[i + 1] == '/')
    ensures |Collapse(x)| > 0 && Collapse(x)[0] == '/' ==> |x| > 0 && x[0] == '/' && (|x| == 1 || x[1] != '/')
    decreases |x|
  {
    var r := Collapse(x);
    if |x| < 2 {
    } else if StartsWith(x, "//") {
      var r' := Collapse(x[2..]);
      CollapseNoDoubleSeparator(x[2..]);
      assert r == "-" + r';
      forall i | 0 <= i < |r| - 1
        ensures !(r[i] == '/' && r[i + 1] == '/')
      {
        if i > 0 {
          assert r[i] == r'[i - 1] && r[i + 1] == r'[i];
        }
      }
    } else {
      var r' := Collapse(x[1..]);
      CollapseNoDoubleSeparator(x[1..]);
      assert r == [x[0]] + r';
      forall i | 0 <= i < |r| - 1
        ensures !(r[i] == '/' && r[i + 1] == '/')
      {
        if i > 0 {
          assert r[i] == r'[i - 1] && r[i + 1] == r'[i];
        }
      }
    }
  }

  // ---------------------------------------------------------------------------
  // Round trip

  /** No separator is directly followed by another separator or by a dash. */
  predicate NoAmbiguousSeparator(s: string) {
    forall i :: 0 <= i < |s| - 1 && s[i] == '/' ==> s[i + 1] != '/' && s[i + 1] != '-'
  }

  lemma NoAmbiguousSeparatorTail(s: string)
    requires s != []
    ensures NoAmbiguousSeparator(s) <==>
              (|s| >= 2 && s[0] == '/' ==> s[1] != '/' && s[1] != '-') && NoAmbiguousSeparator(s[1..])
  {
    var t := s[1..];
    if NoAmbiguousSeparator(s) {
      forall i | 0 <= i < |t| - 1 && t[i] == '/'
        ensures t[i + 1] != '/' && t[i + 1] != '-'
      {
        assert s[i + 1] == t[i];
      }
    }
    if (|s| >= 2 && s[0] == '/' ==> s[1] != '/' && s[1] != '-') && NoAmbiguousSeparator(t) {
      forall i | 0 <= i < |s| - 1 && s[i] == '/'
        ensures s[i + 1] != '/' && s[i + 1] != '-'
      {
        if i > 0 {
          assert t[i - 1] == s[i];
        }
      }
    }
  }

  /** Decoding undoes the encoding of a stripped path exactly when no
      separator in it is followed by a separator or a dash; and decoding never
      lengthens it. */
  lemma {:induction false} UnescapeEscapeIdentity(s: string)
    ensures Unescape(Escape(s)) == s <==> NoAmbiguousSeparator(s)
    ensures |Unescape(Escape(s))| <= |s|
  {
    UnescapeEscapeIsCollapse(s);
    CollapseIdentity(s);
  }

  lemma {:induction false} CollapseIdentity(s: string)
    ensures Collapse(SeparatorPairs(s)) == s <==> NoAmbiguousSeparator(s)
    ensures |Collapse(SeparatorPairs(s))| <= |s|
    decreases |s|
  {
    if s == [] {
    } else {
      NoAmbiguousSeparatorTail(s);
      var t := s[1..];
      assert s == [s[0]] + t;
      if s[0] != '/' {
        StepOther(s[0], t);
        CollapseIdentity(t);
      } else if t == [] {
        StepLoneSeparator();
      } else if t[0] != '/' && t[0] != '-' {
        var u := t[1..];
        assert s == ['/', t[0]] + u && t == [t[0]] + u;
        StepSeparatorKept(t[0], u);
        CollapseIdentity(t);
      } else if t[0] == '-' {
        var u := t[1..];
        assert s == "/-" + u;
        StepSeparatorDash(u);
        CollapseIdentity("/" + u);
      } else {
        var u := t[1..];
        assert s == "//" + u;
        StepSeparatorPair(u);
        CollapseIdentity(u);
      }
    }
  }

  /** The paths the codec reproduces: absolute, no further separators at
      either end, and no separator followed by a separator or a dash. */
  predicate RoundTrips(path: string) {
    && |path| > 0 && path[0] == '/'
    && path[1..] == Strip(path, '/')
    && NoAmbiguousSeparator(path[1..])
  }

  /** Decoding the encoded name returns the original path if and only if the
      path is one the codec reproduces. */
  lemma RoundTripIff(path: string)
    ensures Decode(VolName(path)) == path <==> RoundTrips(path)
  {
    var s := Strip(path, '/');
    var u := Unescape(Escape(s));
    var d := Decode(VolName(path));
    assert d == "/" + u && d[1..] == u;
    UnescapeEscapeIdentity(s);
    if |path| == 0 || path[0] != '/' {
      assert !RoundTrips(path);
      assert d[0] == '/';
    } else if path[1..] != s {
      assert !RoundTrips(path);
      StripShorter(path, '/');
      assert |d| < |path|;
    } else {
      assert path == "/" + s;
      assert RoundTrips(path) <==> NoAmbiguousSeparator(s);
      assert d == path <==> u == s;
    }
  }

  /** A path as the volume manager expects it: absolute, no trailing
      separator, no empty segment, and every dash strictly inside a
      segment. */
  predicate PlainPath(path: string) {
    && |path| >= 2 && path[0] == '/' && path[|path| - 1] != '/'
    && (forall i :: 0 <= i < |path| - 1 && path[i] == '/' ==> path[i + 1] != '/')
    && (forall i :: 0 <= i < |path| && path[i] == '-' ==>
          0 < i < |path| - 1 && path[i - 1] != '/' && path[i + 1] != '/')
  }

  /** Every plain path survives the round trip. */
  lemma PlainPathRoundTrips(path: string)
    requires PlainPath(path)
    ensures Decode(VolName(path)) == path
  {
    var t := path[1..];
    assert t[0] == path[1] && t[|t| - 1] == path[|path| - 1];
    StripNothing(t, '/');
    assert RStrip(path, '/') == path;
    assert LStrip(path, '/') == LStrip(t, '/');
    forall i | 0 <= i < |t| - 1 && t[i] == '/'
      ensures t[i + 1] != '/' && t[i + 1] != '-'
    {
      assert path[i + 1] == '/' && path[i + 2] == t[i + 1];
    }
    RoundTripIff(path);
  }

  /** Encoding ignores any trailing separators. */
  lemma VolNameIgnoresTrailingSeparators(path: string)
    ensures VolName(RStrip(path, '/')) == VolName(path)
  {
    StripAfterRStrip(path, '/');
  }

  // ---------------------------------------------------------------------------
  // Collision

  /** `/a-/b` and `/a/-b` are both encoded as `a---b`, which decodes to
      `/a-/b`: the encoding is not injective and `/a/-b` does not survive the
      round trip. */
  lemma DashCollision()
    ensures VolName("/a-/b") == "a---b"
    ensures VolName("/a/-b") == "a---b"
    ensures Decode("a---b") == "/a-/b"
    ensures Decode(VolName("/a/-b")) != "/a/-b"
  {
    EncodeDashBeforeSeparator();
    EncodeDashAfterSeparator();
    DecodeTripleDash();
  }

  lemma EncodeDashBeforeSeparator()
    ensures VolName("/a-/b") == "a---b"
  {
    var p := "/a-/b";
    StripNothing(p[1..], '/');
    assert LStrip(p, '/') == LStrip(p[1..], '/');
    assert Strip(p, '/') == "a-/b";
    assert Escape("a-/b") == "a---b";
  }

  lemma EncodeDashAfterSeparator()
    ensures VolName("/a/-b") == "a---b"
  {
    var q := "/a/-b";
    StripNothing(q[1..], '/');
    assert LStrip(q, '/') == LStrip(q[1..], '/');
    assert Strip(q, '/') == "a/-b";
    assert Escape("a/-b") == "a---b";
  }

  lemma DecodeTripleDash()
    ensures Decode("a---b") == "/a-/b"
  {
    var p := "/a-/b";
    EncodeDashBeforeSeparator();
    StripNothing(p[1..], '/');
    assert RStrip(p, '/') == p;
    RoundTripIff(p);
    assert NoAmbiguousSeparator(p[1..]);
  }
}

=== FILE: persist.dfy ===
/** The dnf plugin `ImgbasedPersist` (src/plugin-dnf/imgbased-persist.py):
    after a dnf transaction it copies the package file of every installed
    package into the persist directory, unless the package is excluded, and
    deletes the file of every removed package; it also decides whether the
    boot configuration must be refreshed. The directory is modelled as the
    set of file names in it. */
module Persist {
  import opened Strings

  /** `ImgbasedPersist.persist_path`; every file name below lives in it. */
  const PersistPath := "/var/imgbased/persisted-rpms/"

  /** What the plugin reads of a dnf package: its name, version, release and
      architecture, and the path `localPkg()` returns for its package file. */
  datatype Package = Package(name: string, version: string, release: string, arch: string, localPkg: string)

  /** The two package lists of the plugin's configuration. */
  datatype Plugin = Plugin(excludedPkgs: seq<string>, bootsetupPkgs: seq<string>)

  /** The persist directory: whether it exists, and the names of its files. */
  datatype PersistDir = PersistDir(present: bool, files: set<string>)

  datatype TransactionResult = TransactionResult(dir: PersistDir, bootsetup: bool)

  /** A directory that does not exist holds no files. */
  predicate Consistent(dir: PersistDir) {
    !dir.present ==> dir.files == {}
  }

  /** `__init__`: each option of section `main` is a comma-separated list.
      Reading the configuration file itself is left to the caller. */
  function Configure(excludeOption: string, bootsetupOption: string): (plugin: Plugin)
    ensures |plugin.excludedPkgs| > 0 && |plugin.bootsetupPkgs| > 0
    ensures Join(plugin.excludedPkgs, ',') == excludeOption
    ensures Join(plugin.bootsetupPkgs, ',') == bootsetupOption
    ensures forall i :: 0 <= i < |plugin.excludedPkgs| ==> ',' !in plugin.excludedPkgs[i]
    ensures forall i :: 0 <= i < |plugin.bootsetupPkgs| ==> ',' !in plugin.bootsetupPkgs[i]
  {
    JoinSplit(excludeOption, ',');
    JoinSplit(bootsetupOption, ',');
    SplitPartsKeepOut(excludeOption, ',');
    SplitPartsKeepOut(bootsetupOption, ',');
    Plugin(Split(excludeOption, ','), Split(bootsetupOption, ','))
  }

  predicate CheckExcludes(plugin: Plugin, name: string) {
    name in plugin.excludedPkgs
  }

  predicate CheckBootsetup(plugin: Plugin, name: string) {
    name in plugin.bootsetupPkgs
  }

  /** A package is excluded exactly when its name is one whole item of the
      comma-separated `exclude` option: for an option written as a list of
      comma-free names, exactly those names. */
  lemma ExcludesAreWholeItems(excluded: seq<string>, bootsetupOption: string, name: string)
    requires |excluded| > 0 && forall i :: 0 <= i < |excluded| ==> ',' !in excluded[i]
    ensures CheckExcludes(Configure(Join(excluded, ','), bootsetupOption), name) <==> name in excluded
  {
    SplitJoin(excluded, ',');
  }

  /** Likewise a package asks for boot setup exactly when its name is one
      whole item of the `bootsetup` option. */
  lemma BootsetupAreWholeItems(excludeOption: string, bootsetup: seq<string>, name: string)
    requires |bootsetup| > 0 && forall i :: 0 <= i < |bootsetup| ==> ',' !in bootsetup[i]
    ensures CheckBootsetup(Configure(excludeOption, Join(bootsetup, ',')), name) <==> name in bootsetup
  {
    SplitJoin(bootsetup, ',');
  }

  /** The file name a removed package is assumed to have been persisted
      under: name, version and release joined by dashes, then a dot, the
      architecture and the `.rpm` suffix. */
  function RpmFileName(p: Package): string {
    p.name + "-" + p.version + "-" + p.release + "." + p.arch + ".rpm"
  }

  /** When no field of the package holds a separator, its file name is a
      plain `.rpm` file name, so the path the removal deletes lies directly
      in the persist directory. */
  lemma RpmFileInPersistDir(p: Package)
    requires '/' !in p.name && '/' !in p.version && '/' !in p.release && '/' !in p.arch
    ensures '/' !in RpmFileName(p)
    ensures Basename(PersistPath + RpmFileName(p)) == RpmFileName(p)
  {
    var f := RpmFileName(p);
    LiteralsHoldNoSeparator();
    assert '/' !in f;
    var dir := "/var/imgbased/persisted-rpms";
    assert PersistPath == dir + "/";
    BasenameAfterSeparator(dir, f);
  }

  lemma LiteralsHoldNoSeparator()
    ensures '/' !in "-" && '/' !in "." && '/' !in ".rpm"
  {
    var rpm := ".rpm";
    assert forall i :: 0 <= i < |rpm| ==> rpm[i] != '/';
  }

  // ---------------------------------------------------------------------------
  // Reference definitions

  /** The files a set of installs contributes: the basename of the package
      file of every install that is not excluded. */
  function Persisted(plugin: Plugin, installs: seq<Package>): set<string> {
    set i | 0 <= i < |installs| && !CheckExcludes(plugin, installs[i].name) :: Basename(installs[i].localPkg)
  }

  /** The files a set of removals deletes. */
  function Unpersisted(removes: seq<Package>): set<string> {
    set i | 0 <= i < |removes| :: RpmFileName(removes[i])
  }

  /** Some installed package is on the boot-setup list. */
  predicate NeedsBootsetup(plugin: Plugin, installs: seq<Package>) {
    exists i :: 0 <= i < |installs| && CheckBootsetup(plugin, installs[i].name)
  }

  lemma PersistedCons(plugin: Plugin, installs: seq<Package>)
    requires |installs| > 0
    ensures Persisted(plugin, installs) ==
              (if CheckExcludes(plugin, installs[0].name) then {} else {Basename(installs[0].localPkg)})
              + Persisted(plugin, installs[1..])
  {
    PersistedTail(plugin, installs);
    PersistedSplit(plugin, installs);
  }

  lemma PersistedTail(plugin: Plugin, installs: seq<Package>)
    requires |installs| > 0
    ensures Persisted(plugin, installs[1..]) <= Persisted(plugin, installs)
  {
    var tail := installs[1..];
    forall j | 0 <= j < |tail| && !CheckExcludes(plugin, tail[j].name)
      ensures Basename(tail[j].localPkg) in Persisted(plugin, installs)
    {
      assert installs[j + 1] == tail[j];
    }
  }

  lemma PersistedSplit(plugin: Plugin, installs: seq<Package>)
    requires |installs| > 0
    ensures Persisted(plugin, installs) <=
              (if CheckExcludes(plugin, installs[0].name) then {} else {Basename(installs[0].localPkg)})
              + Persisted(plugin, installs[1..])
  {
    var tail := installs[1..];
    forall f | f in Persisted(plugin, installs)
      ensures f in Persisted(plugin, tail) || (!CheckExcludes(plugin, installs[0].name) && f == Basename(installs[0].localPkg))
    {
      var i :| 0 <= i < |installs| && !CheckExcludes(plugin, installs[i].name) && Basename(installs[i].localPkg) == f;
      if i > 0 {
        assert tail[i - 1] == installs[i];
      }
    }
  }

  lemma PersistInstallsStep(plugin: Plugin, files: set<string>, installs: seq<Package>)
    requires |installs| > 0
    ensures (if CheckExcludes(plugin, installs[0].name) then files else files + {Basename(installs[0].localPkg)})
              + Persisted(plugin, installs[1..]) == files + Persisted(plugin, installs)
  {
    PersistedCons(plugin, installs);
  }

  lemma UnpersistedCons(removes: seq<Package>)
    requires |removes| > 0
    ensures Unpersisted(removes) == {RpmFileName(removes[0])} + Unpersisted(removes[1..])
  {
    var tail := removes[1..];
    forall f | f in Unpersisted(tail)
      ensures f in Unpersisted(removes)
    {
      var j :| 0 <= j < |tail| && RpmFileName(tail[j]) == f;
      assert removes[j + 1] == tail[j];
    }
    forall f | f in Unpersisted(removes)
      ensures f in Unpersisted(tail) || f == RpmFileName(removes[0])
    {
      var i :| 0 <= i < |removes| && RpmFileName(removes[i]) == f;
      if i > 0 {
        assert tail[i - 1] == removes[i];
      }
    }
  }

  lemma NeedsBootsetupCons(plugin: Plugin, installs: seq<Package>)
    requires |installs| > 0
    ensures NeedsBootsetup(plugin, installs) <==>
              CheckBootsetup(plugin, installs[0].name) || NeedsBootsetup(plugin, installs[1..])
  {
    var tail := installs[1..];
    if NeedsBootsetup(plugin, tail) {
      var j :| 0 <= j < |tail| && CheckBootsetup(plugin, tail[j].name);
      assert installs[j + 1] == tail[j];
    }
    if NeedsBootsetup(plugin, installs) && !CheckBootsetup(plugin, installs[0].name) {
      var i :| 0 <= i < |installs| && CheckBootsetup(plugin, installs[i].name);
      assert tail[i - 1] == installs[i];
    }
  }

  // ---------------------------------------------------------------------------
  // The transaction hook

  /** The install loop (lines 57-64) from a given directory and flag: the
      boot-setup check comes before the exclusion check, so an excluded
      package still asks for boot setup; a package that is not excluded has
      its package file copied in, replacing a file of the same name. */
  function PersistInstalls(plugin: Plugin, files: set<string>, bootsetup: bool, installs: seq<Package>): (r: (set<string>, bool))
    ensures r.0 == files + Persisted(plugin, installs)
    ensures r.1 <==> bootsetup || NeedsBootsetup(plugin, installs)
    decreases |installs|
  {
    if installs == [] then (files, bootsetup)
    else
      var p := installs[0];
      var flag := bootsetup || CheckBootsetup(plugin, p.name);
      var files' := if CheckExcludes(plugin, p.name) then files else files + {Basename(p.localPkg)};
      PersistInstallsStep(plugin, files, installs);
      NeedsBootsetupCons(plugin, installs);
      PersistInstalls(plugin, files', flag, installs[1..])
  }

  /** The removal loop (lines 69-77): delete each removed package's file; a
      file that is not there is passed over in silence. */
  function UnpersistRemoves(files: set<string>, removes: seq<Package>): (r: set<string>)
    ensures r == files - Unpersisted(removes)
    decreases |removes|
  {
    if removes == [] then files
    else
      UnpersistedCons(removes);
      UnpersistRemoves(files - {RpmFileName(removes[0])}, removes[1..])
  }

  /** `transaction()`: with a non-empty install set, create the directory if
      needed and persist the installs; then unpersist the removals. */
  function Transaction(plugin: Plugin, dir: PersistDir, installs: seq<Package>, removes: seq<Package>): (r: TransactionResult)
    ensures r.dir.files == (dir.files + Persisted(plugin, installs)) - Unpersisted(removes)
    ensures r.bootsetup <==> NeedsBootsetup(plugin, installs)
    ensures r.dir.present <==> dir.present || |installs| > 0
    ensures Consistent(dir) ==> Consistent(r.dir)
    ensures installs == [] ==> r.dir.files <= dir.files && !r.bootsetup && r.dir.present == dir.present
  {
    var installed :=
      if |installs| > 0 then
        var (files, bootsetup) := PersistInstalls(plugin, dir.files, false, installs);
        TransactionResult(PersistDir(true, files), bootsetup)
      else
        TransactionResult(dir, false);
    installed.(dir := installed.dir.(files := UnpersistRemoves(installed.dir.files, removes)))
  }

  /** What the file formula of `Transaction` means file by file: a new file
      comes from a package that was installed and not excluded; the file of
      every such package is there unless a removal deleted it; no removed
      package's file is left; and every other file is kept. */
  lemma TransactionFiles(plugin: Plugin, dir: PersistDir, installs: seq<Package>, removes: seq<Package>)
    ensures forall f :: f in Transaction(plugin, dir, installs, removes).dir.files && f !in dir.files ==>
              exists i :: 0 <= i < |installs| && !CheckExcludes(plugin, installs[i].name) && Basename(installs[i].localPkg) == f
    ensures forall i :: 0 <= i < |installs| && !CheckExcludes(plugin, installs[i].name)
              && Basename(installs[i].localPkg) !in Unpersisted(removes)
              ==> Basename(installs[i].localPkg) in Transaction(plugin, dir, installs, removes).dir.files
    ensures forall j :: 0 <= j < |removes| ==> RpmFileName(removes[j]) !in Transaction(plugin, dir, installs, removes).dir.files
    ensures forall f :: f in dir.files && f !in Unpersisted(removes) ==> f in Transaction(plugin, dir, installs, removes).dir.files
  {
    var files := Transaction(plugin, dir, installs, removes).dir.files;
    assert files == (dir.files + Persisted(plugin, installs)) - Unpersisted(removes);
    forall i | 0 <= i < |installs| && !CheckExcludes(plugin, installs[i].name)
      ensures Basename(installs[i].localPkg) in Persisted(plugin, installs)
    {
    }
    forall j | 0 <= j < |removes|
      ensures RpmFileName(removes[j]) in Unpersisted(removes)
    {
    }
  }

  // ---------------------------------------------------------------------------
  // Properties across transactions

  /** Removing the same packages again changes nothing: a missing file is no
      error, so the second pass is silent. */
  lemma RemovalIdempotent(plugin: Plugin, dir: PersistDir, removes: seq<Package>)
    ensures Transaction(plugin, Transaction(plugin, dir, [], removes).dir, [], removes) ==
            Transaction(plugin, dir, [], removes)
  {
    var once := Transaction(plugin, dir, [], removes).dir;
    var twice := Transaction(plugin, once, [], removes).dir;
    assert twice.files == once.files;
  }

  /** The outcome depends only on which packages are in the install and
      remove sets, not on the order dnf iterates them in. */
  lemma OrderIrrelevant(plugin: Plugin, dir: PersistDir, installs: seq<Package>, installs': seq<Package>,
                        removes: seq<Package>, removes': seq<Package>)
    requires forall p :: p in installs <==> p in installs'
    requires forall p :: p in removes <==> p in removes'
    ensures Transaction(plugin, dir, installs, removes) == Transaction(plugin, dir, installs', removes')
  {
    SameElementsPersisted(plugin, installs, installs');
    SameElementsPersisted(plugin, installs', installs);
    SameElementsUnpersisted(removes, removes');
    SameElementsUnpersisted(removes', removes);
    SameElementsBootsetup(plugin, installs, installs');
    SameElementsBootsetup(plugin, installs', installs);
    if |installs| > 0 {
      assert installs[0] in installs';
    }
    if |installs'| > 0 {
      assert installs'[0] in installs;
    }
  }

  lemma SameElementsPersisted(plugin: Plugin, a: seq<Package>, b: seq<Package>)
    requires forall p :: p in a ==> p in b
    ensures Persisted(plugin, a) <= Persisted(plugin, b)
  {
    forall f | f in Persisted(plugin, a)
      ensures f in Persisted(plugin, b)
    {
      var i :| 0 <= i < |a| && !CheckExcludes(plugin, a[i].name) && Basename(a[i].localPkg) == f;
      assert a[i] in b;
      var j :| 0 <= j < |b| && b[j] == a[i];
    }
  }

  lemma SameElementsUnpersisted(a: seq<Package>, b: seq<Package>)
    requires forall p :: p in a ==> p in b
    ensures Unpersisted(a) <= Unpersisted(b)
  {
    forall f | f in Unpersisted(a)
      ensures f in Unpersisted(b)
    {
      var i :| 0 <= i < |a| && RpmFileName(a[i]) == f;
      assert a[i] in b;
      var j :| 0 <= j < |b| && b[j] == a[i];
    }
  }

  lemma SameElementsBootsetup(plugin: Plugin, a: seq<Package>, b: seq<Package>)
    requires forall p :: p in a ==> p in b
    ensures NeedsBootsetup(plugin, a) ==> NeedsBootsetup(plugin, b)
  {
    if NeedsBootsetup(plugin, a) {
      var i :| 0 <= i < |a| && CheckBootsetup(plugin, a[i].name);
      assert a[i] in b;
      var j :| 0 <= j < |b| && b[j] == a[i];
    }
  }

  /** A package dnf keeps as `<cache dir>/<name>-<version>-<release>.<arch>.rpm`
      is persisted under the very name its removal deletes: installing it
      and then removing it leaves the directory without that file and
      otherwise as it was. */
  lemma InstallThenRemove(plugin: Plugin, dir: PersistDir, p: Package, cacheDir: string)
    requires p.localPkg == cacheDir + "/" + RpmFileName(p) && '/' !in RpmFileName(p)
    requires !CheckExcludes(plugin, p.name)
    ensures RpmFileName(p) in Transaction(plugin, dir, [p], []).dir.files
    ensures Transaction(plugin, Transaction(plugin, dir, [p], []).dir, [], [p]).dir.files == dir.files - {RpmFileName(p)}
  {
    BasenameAfterSeparator(cacheDir, RpmFileName(p));
    assert Persisted(plugin, [p]) == {RpmFileName(p)} by {
      PersistedCons(plugin, [p]);
    }
    assert Unpersisted([p]) == {RpmFileName(p)} by {
      UnpersistedCons([p]);
    }
  }

  /** The configured lists are exactly the comma-separated items of the
      options: joining them back gives the option text. */
  lemma ConfigureRoundTrip(excluded: seq<string>, bootsetup: seq<string>)
    requires |excluded| > 0 && |bootsetup| > 0
    requires forall i :: 0 <= i < |excluded| ==> ',' !in excluded[i]
    requires forall i :: 0 <= i < |bootsetup| ==> ',' !in bootsetup[i]
    ensures Configure(Join(excluded, ','), Join(bootsetup, ',')) == Plugin(excluded, bootsetup)
  {
    SplitJoin(excluded, ',');
    SplitJoin(bootsetup, ',');
  }
}

=== FILE: strings.dfy ===
/** The few Python `str` and `os.path` operations the volume manager and the
    dnf plugin are built from, with their Python semantics made explicit. */
module Strings {

  predicate StartsWith(s: string, prefix: string) {
    |prefix| <= |s| && s[..|prefix|] == prefix
  }

  lemma ConcatParts(a: string, b: string)
    ensures (a + b)[..|a|] == a && (a + b)[|a|..] == b
  {
  }

  /** `s.replace(pat, rep)`: scan left to right, replace every occurrence of
      `pat` by `rep`, and resume scanning after the replaced occurrence, so
      occurrences never overlap ("///".replace("//", "-") is "-/"). */
  function Replace(s: string, pat: string, rep: string): string
    requires |pat| > 0
    decreases |s|
  {
    if |s| < |pat| then s
    else if StartsWith(s, pat) then rep + Replace(s[|pat|..], pat, rep)
    else [s[0]] + Replace(s[1..], pat, rep)
  }

  lemma ReplaceMatch(pat: string, rep: string, rest: string)
    requires |pat| > 0
    ensures Replace(pat + rest, pat, rep) == rep + Replace(rest, pat, rep)
  {
    assert (pat + rest)[..|pat|] == pat;
    assert (pat + rest)[|pat|..] == rest;
  }

  lemma ReplaceMiss(x: char, rest: string, pat: string, rep: string)
    requires |pat| > 0 && !StartsWith([x] + rest, pat)
    ensures Replace([x] + rest, pat, rep) == [x] + Replace(rest, pat, rep)
  {
    assert ([x] + rest)[1..] == rest;
  }

  /** A string that differs from the pattern at some position both reach
      does not start with it. */
  lemma NotStartsWithAt(s: string, pat: string, k: nat)
    requires k < |s| && k < |pat| && s[k] != pat[k]
    ensures !StartsWith(s, pat)
  {
    if |pat| <= |s| {
      assert s[..|pat|][k] == s[k];
    }
  }

  /** Replacing a one-character pattern rewrites each character on its own,
      so it distributes over concatenation. */
  lemma {:induction false} ReplaceCharConcat(a: string, b: string, c: char, rep: string)
    ensures Replace(a + b, [c], rep) == Replace(a, [c], rep) + Replace(b, [c], rep)
    decreases |a|
  {
    if a == [] {
      assert a + b == b;
    } else {
      var x, t := a[0], a[1..];
      assert a == [x] + t;
      assert a + b == [x] + (t + b);
      ReplaceCharConcat(t, b, c, rep);
      if x == c {
        ReplaceMatch([c], rep, t + b);
        ReplaceMatch([c], rep, t);
      } else {
        ReplaceMiss(x, t + b, [c], rep);
        ReplaceMiss(x, t, [c], rep);
      }
    }
  }

  /** Replacing a one-character pattern leaves no occurrence of it behind
      unless the replacement itself brings one. */
  lemma {:induction false} ReplaceCharRemoves(s: string, c: char, rep: string)
    requires c !in rep
    ensures c !in Replace(s, [c], rep)
    decreases |s|
  {
    if s != [] {
      var x, t := s[0], s[1..];
      assert s == [x] + t;
      ReplaceCharRemoves(t, c, rep);
      if x == c {
        ReplaceMatch([c], rep, t);
      } else {
        NotStartsWithAt(s, [c], 0);
        ReplaceMiss(x, t, [c], rep);
      }
    }
  }

  /** A one-character string under a one-character replacement. */
  lemma ReplaceCharSingle(x: char, c: char, rep: string)
    ensures Replace([x], [c], rep) == if x == c then rep else [x]
  {
    assert [x] == [x] + [];
    if x == c {
      ReplaceMatch([c], rep, []);
    } else {
      ReplaceMiss(x, [], [c], rep);
    }
  }

  /** `s.lstrip(c)`: drop every leading `c`. */
  function LStrip(s: string, c: char): (r: string)
    ensures |r| <= |s| && r == s[|s| - |r|..]
    ensures forall k :: 0 <= k < |s| - |r| ==> s[k] == c
    ensures r == [] || r[0] != c
    decreases |s|
  {
    if |s| > 0 && s[0] == c then LStrip(s[1..], c) else s
  }

  /** `s.rstrip(c)`: drop every trailing `c`. */
  function RStrip(s: string, c: char): (r: string)
    ensures |r| <= |s| && r == s[..|r|]
    ensures forall k :: |r| <= k < |s| ==> s[k] == c
    ensures r == [] || r[|r| - 1] != c
    decreases |s|
  {
    if |s| > 0 && s[|s| - 1] == c then RStrip(s[..|s| - 1], c) else s
  }

  /** `s.strip(c)`: drop every leading and every trailing `c`. */
  function Strip(s: string, c: char): (r: string)
    ensures |r| <= |s|
    ensures r == [] || (r[0] != c && r[|r| - 1] != c)
  {
    var right := RStrip(s, c);
    var r := LStrip(right, c);
    assert r == [] || r[|r| - 1] == right[|right| - 1];
    r
  }

  /** What `strip` returns is the slice of `s` between a run of `c` at the
      front and a run of `c` at the back: it drops nothing but `c`, and with
      `Strip`'s own contract it is the longest such slice whose ends are not
      `c`. */
  lemma StripIsSlice(s: string, c: char)
    ensures exists i, j :: 0 <= i <= j <= |s| && Strip(s, c) == s[i..j] &&
                           (forall k :: 0 <= k < i ==> s[k] == c) &&
                           (forall k :: j <= k < |s| ==> s[k] == c)
  {
    var right := RStrip(s, c);
    var r := LStrip(right, c);
    var i, j := |right| - |r|, |right|;
    assert Strip(s, c) == r == s[i..j];
    assert forall k :: 0 <= k < i ==> s[k] == right[k] == c;
    assert forall k :: j <= k < |s| ==> s[k] == c;
    assert 0 <= i <= j <= |s| && Strip(s, c) == s[i..j] &&
           (forall k :: 0 <= k < i ==> s[k] == c) &&
           (forall k :: j <= k < |s| ==> s[k] == c);
  }

  /** Stripping trailing characters first does not change what `strip` returns. */
  lemma StripAfterRStrip(s: string, c: char)
    ensures RStrip(RStrip(s, c), c) == RStrip(s, c)
    ensures Strip(RStrip(s, c), c) == Strip(s, c)
  {
  }

  /** Stripping only removes characters. */
  lemma StripKeepsOut(s: string, c: char, d: char)
    requires d !in s
    ensures d !in Strip(s, c)
  {
    var right := RStrip(s, c);
    assert d !in right;
  }

  /** A string with no `c` at either end is its own `strip`. */
  lemma StripNothing(s: string, c: char)
    requires s == [] || (s[0] != c && s[|s| - 1] != c)
    ensures Strip(s, c) == s
  {
  }

  /** If `s` starts with `c` and `s[1..]` is not the stripped form of `s`,
      stripping removed more than that one leading `c`. */
  lemma StripShorter(s: string, c: char)
    requires |s| > 0 && s[0] == c && s[1..] != Strip(s, c)
    ensures |Strip(s, c)| < |s| - 1
  {
    var right := RStrip(s, c);
    var r := LStrip(right, c);
    if |right| == |s| {
      assert right == s;
    } else if |right| > 0 {
      assert right[0] == c;
      assert |r| < |right|;
    }
  }

  /** `os.path.basename(s)`: everything after the last separator. */
  function Basename(s: string): (r: string)
    ensures '/' !in r
    ensures |r| <= |s| && r == s[|s| - |r|..]
    ensures |r| < |s| ==> s[|s| - |r| - 1] == '/'
    decreases |s|
  {
    if |s| == 0 || s[|s| - 1] == '/' then [] else Basename(s[..|s| - 1]) + [s[|s| - 1]]
  }

  /** The basename of `dir/file` is `file` whenever `file` holds no separator. */
  lemma BasenameAfterSeparator(dir: string, file: string)
    requires '/' !in file
    ensures Basename(dir + "/" + file) == file
  {
    var s := dir + "/" + file;
    var r := Basename(s);
    assert s[|s| - |file| - 1] == '/';
    assert |r| == |file|;
    assert s[|s| - |file|..] == file;
  }

  /** `sep.join(parts)`. */
  function Join(parts: seq<string>, sep: char): string
    requires |parts| > 0
    decreases |parts|
  {
    if |parts| == 1 then parts[0] else parts[0] + [sep] + Join(parts[1..], sep)
  }

  /** Joining parts whose last one is empty ends with the separator. */
  lemma {:induction false} JoinEndsWithEmpty(parts: seq<string>, sep: char)
    requires |parts| >= 2 && parts[|parts| - 1] == []
    ensures |Join(parts, sep)| > 0 && Join(parts, sep)[|Join(parts, sep)| - 1] == sep
    decreases |parts|
  {
    if |parts| == 2 {
      assert Join(parts, sep) == parts[0] + [sep] + [];
    } else {
      JoinEndsWithEmpty(parts[1..], sep);
    }
  }

  /** `s.split(sep)`: cut at every `sep`; a leading, trailing or doubled
      separator yields an empty part, and `""` splits into `[""]`. */
  function Split(s: string, sep: char): (parts: seq<string>)
    ensures |parts| > 0
    decreases |s|
  {
    if s == [] then [[]]
    else if s[0] == sep then [[]] + Split(s[1..], sep)
    else
      var rest := Split(s[1..], sep);
      [[s[0]] + rest[0]] + rest[1..]
  }

  lemma {:induction false} SplitNoSeparator(s: string, sep: char)
    requires sep !in s
    ensures Split(s, sep) == [s]
    decreases |s|
  {
    if s != [] {
      SplitNoSeparator(s[1..], sep);
      assert [s[0]] + s[1..] == s;
    }
  }

  lemma {:induction false} SplitCons(part: string, sep: char, rest: string)
    requires sep !in part
    ensures Split(part + [sep] + rest, sep) == [part] + Split(rest, sep)
    decreases |part|
  {
    var s := part + [sep] + rest;
    if part == [] {
      assert s == [sep] + rest;
      assert s[1..] == rest;
    } else {
      assert s[0] == part[0] && s[1..] == part[1..] + [sep] + rest;
      SplitCons(part[1..], sep, rest);
      assert [part[0]] + part[1..] == part;
    }
  }

  /** Splitting joined parts gives the parts back when none holds the separator. */
  lemma {:induction false} SplitJoin(parts: seq<string>, sep: char)
    requires |parts| > 0
    requires forall i :: 0 <= i < |parts| ==> sep !in parts[i]
    ensures Split(Join(parts, sep), sep) == parts
    decreases |parts|
  {
    if |parts| == 1 {
      SplitNoSeparator(parts[0], sep);
    } else {
      SplitJoin(parts[1..], sep);
      SplitCons(parts[0], sep, Join(parts[1..], sep));
    }
  }

  /** Joining the parts of a split gives the string back. */
  lemma {:induction false} JoinSplit(s: string, sep: char)
    ensures Join(Split(s, sep), sep) == s
    decreases |s|
  {
    if s != [] {
      var rest := Split(s[1..], sep);
      JoinSplit(s[1..], sep);
      var parts := Split(s, sep);
      if s[0] == sep {
        assert parts[0] == [] && parts[1..] == rest;
        assert Join(parts, sep) == [sep] + Join(rest, sep);
        assert s == [sep] + s[1..];
      } else {
        assert parts[0] == [s[0]] + rest[0] && parts[1..] == rest[1..];
        if |rest| == 1 {
          assert Join(parts, sep) == [s[0]] + rest[0];
        } else {
          assert Join(rest, sep) == rest[0] + [sep] + Join(rest[1..], sep);
          assert Join(parts, sep) == [s[0]] + rest[0] + [sep] + Join(rest[1..], sep);
        }
        assert [s[0]] + s[1..] == s;
      }
    }
  }

  /** No part of a split holds the separator. */
  lemma {:induction false} SplitPartsKeepOut(s: string, sep: char)
    ensures forall i :: 0 <= i < |Split(s, sep)| ==> sep !in Split(s, sep)[i]
    decreases |s|
  {
    if s != [] {
      var rest := Split(s[1..], sep);
      SplitPartsKeepOut(s[1..], sep);
      var parts := Split(s, sep);
      if s[0] == sep {
        assert parts[1..] == rest;
        assert forall i :: 0 < i < |parts| ==> parts[i] == rest[i - 1];
      } else {
        assert parts[0] == [s[0]] + rest[0] && parts[1..] == rest[1..];
        forall i | 0 <= i < |parts|
          ensures sep !in parts[i]
        {
          if i > 0 {
            assert parts[i] == rest[i];
          }
        }
      }
    }
  }
}

=== FILE: volume_lifecycle.dfy ===
/** Properties of the volume manager that relate several calls: the life
    cycle Absent -> Attached <-> Unmounted -> Absent, the listing after a
    create, and what `create` leaves behind for a path the codec cannot
    represent. */
module VolumeLifecycle {
  import opened Strings
  import opened NameCodec
  import opened MountUnit
  import opened Volumes

  /** `is_volume` sees only the path without its trailing separators, and
      holds exactly when some tagged LV decodes to that path. */
  lemma IsVolumeIgnoresTrailingSeparators(h: Host, where: string)
    ensures IsVolume(h, where) == IsVolume(h, RStrip(where, '/'))
    ensures IsVolume(h, where) <==>
              exists i :: 0 <= i < |h.lvs| && Tagged(h.lvs[i]) && Decode(h.lvs[i].name) == RStrip(where, '/')
  {
    StripAfterRStrip(where, '/');
  }

  /** `create` completes for exactly the paths the codec represents: after
      trailing separators are dropped, the path must survive the round trip. */
  lemma CreateNeedsRepresentablePath(h: Host, where: string, size: string)
    ensures Create(h, where, size).Done? <==> CreateAllowed(h, where) && RoundTrips(RStrip(where, '/'))
  {
    VolNameIgnoresTrailingSeparators(where);
    RoundTripIff(RStrip(where, '/'));
  }

  /** After a successful `create` the path is listed exactly once, at the end
      of the listing, and nothing else in the listing moved. */
  lemma CreateListsPathOnce(h: Host, where: string, size: string)
    requires CreateAllowed(h, where) && Decode(VolName(where)) == RStrip(where, '/')
    ensures VolumePaths(Create(h, where, size).host.lvs) == VolumePaths(h.lvs) + [RStrip(where, '/')]
    ensures multiset(VolumePaths(Create(h, where, size).host.lvs))[RStrip(where, '/')] == 1
  {
    var lv := Lv(VolName(where), size, {VolumeTag});
    VolumePathsAppend(h.lvs, lv);
    assert RStrip(where, '/') !in multiset(VolumePaths(h.lvs));
  }

  /** A path made of separators only, `/` itself included, names its LV with
      the empty string, which LVM refuses: `create` stops before anything is
      made. */
  lemma CreateSeparatorsOnlyRefused(h: Host, where: string, size: string)
    requires !IsVolume(h, where) && IsAbsolute(where) && where in h.dirs
    requires Strip(where, '/') == []
    ensures VolName(where) == []
    ensures Create(h, where, size) == Failed(InvalidLvName, h)
  {
  }

  /** A path whose first component starts with a dash names its LV with a
      leading dash, which LVM refuses. */
  lemma CreateLeadingDashRefused(h: Host, where: string, size: string)
    requires !IsVolume(h, where) && IsAbsolute(where) && where in h.dirs
    requires Strip(where, '/') != [] && Strip(where, '/')[0] == '-'
    ensures VolName(where)[..2] == "--"
    ensures Create(h, where, size) == Failed(InvalidLvName, h)
  {
    var s := Strip(where, '/');
    assert s == [s[0]] + s[1..];
    EscapeCons(s[0], s[1..]);
  }

  /** On a host whose LV names are all names LVM accepts, the tagged LV that
      makes a path a volume is named exactly after the path. So `attach`
      writes the device of that very LV, and `remove` deletes it. */
  lemma VolumeLvNamedAfterPath(h: Host, where: string)
    requires forall i :: 0 <= i < |h.lvs| ==> ValidLvName(h.lvs[i].name)
    requires IsVolume(h, where)
    ensures exists i :: 0 <= i < |h.lvs| && Tagged(h.lvs[i]) && h.lvs[i].name == VolName(where)
  {
    var p := RStrip(where, '/');
    var i :| 0 <= i < |h.lvs| && Tagged(h.lvs[i]) && Decode(h.lvs[i].name) == p;
    var n := h.lvs[i].name;
    LvNameCharsNoSeparator(n);
    assert Decode(n)[|Decode(n)| - 1] != '/';
    DecodeRoundTrip(n);
    VolNameIgnoresTrailingSeparators(where);
    assert n == VolName(where);
  }

  /** On such a host `remove` of a volume always completes: after the detach
      LVM finds the LV of the path's name, so `NoSuchLv` cannot occur. */
  lemma RemoveVolumeSucceeds(h: Host, where: string)
    requires forall i :: 0 <= i < |h.lvs| ==> ValidLvName(h.lvs[i].name)
    requires IsVolume(h, where)
    ensures HasLv(h.lvs, VolName(where))
    ensures Remove(h, where).Done?
  {
    VolumeLvNamedAfterPath(h, where);
  }

  /** `attach` then `detach` leaves a volume that is still a volume, with no
      unit file and its unit neither enabled nor started, and the same LVs. */
  lemma AttachThenDetach(h: Host, where: string)
    requires IsVolume(h, where)
    ensures Detach(Attach(h, where).host, where).Done?
    ensures IsVolume(Detach(Attach(h, where).host, where).host, where)
    ensures Unmounted(Detach(Attach(h, where).host, where).host, where)
    ensures Detach(Attach(h, where).host, where).host.lvs == h.lvs
    ensures Detach(Attach(h, where).host, where).host.log == h.log + AttachCalls(where) + DetachCalls(where)
  {
  }

  /** A second `detach` succeeds too and changes nothing but the call log. */
  lemma DetachTwice(h: Host, where: string)
    requires Detach(h, where).Done?
    ensures Detach(Detach(h, where).host, where).Done?
    ensures Detach(Detach(h, where).host, where).host ==
              Detach(h, where).host.(log := Detach(h, where).host.log + DetachCalls(where))
  {
    var once := Detach(h, where).host;
    var twice := Detach(once, where).host;
    assert twice.units == once.units;
    assert twice.enabled == once.enabled;
    assert twice.active == once.active;
  }

  /** `create` followed by `remove` of the same path succeeds and restores
      the LV inventory, so no LV of the path's name is left, and leaves the
      path neither a volume nor mounted. */
  lemma CreateThenRemove(h: Host, where: string, size: string)
    requires CreateAllowed(h, where) && Decode(VolName(where)) == RStrip(where, '/')
    ensures Remove(Create(h, where, size).host, where).Done?
    ensures Remove(Create(h, where, size).host, where).host.lvs == h.lvs
    ensures !HasLv(Remove(Create(h, where, size).host, where).host.lvs, VolName(where))
    ensures !IsVolume(Remove(Create(h, where, size).host, where).host, where)
    ensures Unmounted(Remove(Create(h, where, size).host, where).host, where)
  {
    var created := Create(h, where, size).host;
    var name := VolName(where);
    var lv := Lv(name, size, {VolumeTag});
    assert !HasLv(h.lvs, name) && !IsVolume(h, where);
    assert HasLv(created.lvs, name) by {
      assert created.lvs[|h.lvs|] == lv;
    }
    WithoutLvAppend(h.lvs, lv, name);
  }

  /** When the path had no unit file before, `create` then `remove` restores
      the unit files too. */
  lemma CreateThenRemoveUnits(h: Host, where: string, size: string)
    requires CreateAllowed(h, where) && Decode(VolName(where)) == RStrip(where, '/')
    requires MountFile(where) !in h.units
    ensures Remove(Create(h, where, size).host, where).Done?
    ensures Remove(Create(h, where, size).host, where).host.units == h.units
  {
    CreateThenRemove(h, where, size);
    UpdateThenRemoveKey(h.units, MountFile(where), MountUnitText(LvPath(h.vg, VolName(where)), where, "discard"));
  }

  lemma UpdateThenRemoveKey(m: map<string, string>, k: string, v: string)
    requires k !in m
    ensures m[k := v] - {k} == m
  {
  }

  lemma {:induction false} WithoutLvAppend(lvs: seq<Lv>, lv: Lv, name: string)
    requires !HasLv(lvs, name) && lv.name == name
    ensures WithoutLv(lvs + [lv], name) == lvs
    decreases |lvs|
  {
    if lvs == [] {
      assert [] + [lv] == [lv];
    } else {
      assert (lvs + [lv])[1..] == lvs[1..] + [lv];
      WithoutLvAppend(lvs[1..], lv, name);
      assert lvs[0].name != name;
      assert lvs == [lvs[0]] + lvs[1..];
    }
  }

  /** On a host with no LVs, `create` of an absolute directory whose name
      decodes back to it completes with exactly one LV, listed under the path. */
  lemma CreateOnEmptyHost(h: Host, where: string, size: string)
    requires h.lvs == [] && IsAbsolute(where) && where in h.dirs && ValidLvName(VolName(where))
    requires Decode(VolName(where)) == RStrip(where, '/')
    ensures Create(h, where, size).Done?
    ensures Create(h, where, size).host.lvs == [Lv(VolName(where), size, {VolumeTag})]
    ensures VolumePaths(Create(h, where, size).host.lvs) == [RStrip(where, '/')]
  {
    assert CreateAllowed(h, where);
    CreateListsPathOnce(h, where, size);
  }

  /** As written, `create` on a path whose name does not decode back to it
      still creates, tags, formats and fills the LV before `attach` refuses:
      the LV is left behind under a name that reads as a different path. */
  lemma CreateLeavesOrphan(h: Host, where: string, size: string)
    requires CreateAllowed(h, where) && Decode(VolName(where)) != RStrip(where, '/')
    ensures Create(h, where, size).Failed?
    ensures Create(h, where, size).error == NotVolume
    ensures Create(h, where, size).host.lvs == h.lvs + [Lv(VolName(where), size, {VolumeTag})]
    ensures !IsVolume(Create(h, where, size).host, where)
    ensures Decode(VolName(where)) in VolumePaths(Create(h, where, size).host.lvs)
  {
    var lv := Lv(VolName(where), size, {VolumeTag});
    VolumePathsAppend(h.lvs, lv);
  }

  /** The concrete instance: creating `/a/-b` on a host with no LVs leaves
      the tagged LV `a---b` behind, and `/a-/b`, which nobody created, is now
      listed as a volume while `/a/-b` is not. */
  lemma CreateDashAfterSeparator(h: Host, p: string)
    requires p == "/a/-b" && h.lvs == [] && p in h.dirs
    ensures Create(h, p, "1G").Failed?
    ensures Create(h, p, "1G").host.lvs == [Lv("a---b", "1G", {VolumeTag})]
    ensures VolumePaths(Create(h, p, "1G").host.lvs) == ["/a-/b"]
    ensures !IsVolume(Create(h, p, "1G").host, p)
  {
    DashAfterSeparatorName(p);
    CreateOrphanOnEmptyHost(h, p, "1G");
  }

  lemma DashAfterSeparatorName(p: string)
    requires p == "/a/-b"
    ensures RStrip(p, '/') == p && IsAbsolute(p)
    ensures VolName(p) == "a---b" && Decode(VolName(p)) == "/a-/b"
    ensures ValidLvName(VolName(p))
  {
    AbsoluteWithoutTrailingSeparator(p);
    DashCollision();
    DashesNameValid();
  }

  lemma DashesNameValid()
    ensures ValidLvName("a---b")
  {
    var n := "a---b";
    assert n[0] == 'a' && n[1] == '-' && n[2] == '-' && n[3] == '-' && n[4] == 'b';
  }

  lemma AbsoluteWithoutTrailingSeparator(p: string)
    requires p == "/a/-b"
    ensures RStrip(p, '/') == p && IsAbsolute(p)
  {
    assert p[|p| - 1] == 'b';
  }

  /** On a host with no LVs, `create` of an absolute directory whose name
      does not decode back to it fails, leaving exactly one LV behind, listed
      under the decoded name and not under the path. */
  lemma CreateOrphanOnEmptyHost(h: Host, where: string, size: string)
    requires h.lvs == [] && IsAbsolute(where) && where in h.dirs && ValidLvName(VolName(where))
    requires Decode(VolName(where)) != RStrip(where, '/')
    ensures Create(h, where, size).Failed?
    ensures Create(h, where, size).host.lvs == [Lv(VolName(where), size, {VolumeTag})]
    ensures VolumePaths(Create(h, where, size).host.lvs) == [Decode(VolName(where))]
    ensures !IsVolume(Create(h, where, size).host, where)
  {
    assert CreateAllowed(h, where);
    CreateLeavesOrphan(h, where, size);
    VolumePathsAppend([], Lv(VolName(where), size, {VolumeTag}));
  }

  /** The corrected `create` never leaves partial state behind: it either
      completes with the path attached, or fails with the host untouched.
      On every path it accepts it behaves exactly like `create`. */
  lemma CreateCheckedAgrees(h: Host, where: string, size: string)
    ensures CreateChecked(h, where, size).Failed? ==> CreateChecked(h, where, size).host == h
    ensures CreateChecked(h, where, size).Done? ==> CreateChecked(h, where, size) == Create(h, where, size)
    ensures Create(h, where, size).Done? ==> CreateChecked(h, where, size) == Create(h, where, size)
  {
    CreateNeedsRepresentablePath(h, where, size);
  }

  /** `attach` writes a unit that mounts the volume's LV on the path with the
      `discard` option. */
  lemma AttachUnitContents(h: Host, where: string)
    requires Attach(h, where).Done? && '\n' !in where && '\n' !in h.vg
    ensures Field(Attach(h, where).host.units[MountFile(where)], "What") == Some(LvPath(h.vg, VolName(where)))
    ensures Field(Attach(h, where).host.units[MountFile(where)], "Where") == Some(where)
    ensures Field(Attach(h, where).host.units[MountFile(where)], "Options") == Some("discard")
  {
    DeviceKeepsOutNewline(h.vg, where);
    DiscardIsOneLine();
    MountUnitFields(Attach(h, where).host.units[MountFile(where)], LvPath(h.vg, VolName(where)), where, "discard");
  }

  lemma DiscardIsOneLine()
    ensures '\n' !in "discard"
  {
    var s := "discard";
    assert forall i :: 0 <= i < |s| ==> s[i] != '\n';
  }

  lemma DeviceKeepsOutNewline(vg: string, where: string)
    requires '\n' !in vg && '\n' !in where
    ensures '\n' !in LvPath(vg, VolName(where))
  {
    VolNameKeepsOutNewline(where);
    DeviceDirIsOneLine();
    var name := VolName(where);
    assert '\n' !in "/dev/" + vg;
    assert '\n' !in "/dev/" + vg + "/";
    assert LvPath(vg, name) == "/dev/" + vg + "/" + name;
  }

  lemma DeviceDirIsOneLine()
    ensures '\n' !in "/dev/" && '\n' !in "/"
  {
    var s := "/dev/";
    assert forall i :: 0 <= i < |s| ==> s[i] != '\n';
  }

  lemma VolNameKeepsOutNewline(where: string)
    requires '\n' !in where
    ensures '\n' !in VolName(where)
  {
    StripKeepsOut(where, '/', '\n');
    EscapeKeepsOut(Strip(where, '/'), '\n');
  }

  /** Escaping introduces no character other than the dash. */
  lemma {:induction false} EscapeKeepsOut(s: string, c: char)
    requires c != '-' && c !in s
    ensures c !in Escape(s)
    decreases |s|
  {
    if s != [] {
      assert s[0] != c;
      EscapeKeepsOut(s[1..], c);
    }
  }
}

=== FILE: volumes.dfy ===
/** The volume manager `Volumes` (src/imgbased/plugins/volume.py) as pure
    transitions over an abstract host. The host gathers what the manager
    reads and changes: the LVM inventory with its tags, the directories that
    exist, the systemd unit files, the enabled and the started units, and an
    ordered log of every external call the manager makes. */
module Volumes {
  import opened Strings
  import opened NameCodec
  import opened MountUnit

  /** `Volumes.tag_volume`: the tag that marks an LV as a managed volume. */
  const VolumeTag := "imgbased:volume"

  datatype Lv = Lv(name: string, size: string, tags: set<string>)

  /** The external effects of the manager, in the order they happen. */
  datatype Call =
    | CreateThinvol(name: string, size: string)
    | AddTag(lv: string, tag: string)
    | Mkfs(device: string)
    | Populate(source: string, device: string)
    | WriteUnitFile(path: string)
    | RemoveUnitFile(path: string)
    | DaemonReload
    | Enable(unit: string)
    | Disable(unit: string)
    | Start(unit: string)
    | Stop(unit: string)
    | ListDir(path: string)
    | RemoveLv(name: string)

  datatype Host = Host(
    vg: string,                   // the volume group of the thin pool
    lvs: seq<Lv>,                 // LVM inventory, in the order LVM lists it
    dirs: set<string>,            // paths for which `os.path.isdir` holds
    units: map<string, string>,   // unit file path -> contents
    enabled: set<string>,         // enabled unit names
    active: set<string>,          // started unit names
    log: seq<Call>)

  /** Why an operation stopped. The first four are the `assert`s of the
      source; `InvalidLvName`, `LvNameTaken` and `NoSuchLv` are LVM refusing
      to create an LV under a name it does not accept or that exists, or to
      remove one that does not exist; `Unrepresentable` is raised only by the
      corrected `CreateChecked`. */
  datatype Error =
    | AlreadyVolume | NotAbsolute | NotDirectory | NotVolume
    | InvalidLvName | LvNameTaken | NoSuchLv | Unrepresentable

  /** An operation either completes, or stops at its first failure with the
      host as that failure left it. */
  datatype Outcome = Done(host: Host) | Failed(error: Error, host: Host)

  predicate Tagged(lv: Lv) {
    VolumeTag in lv.tags
  }

  /** `volumes()`: the decoded name of every LV carrying the volume tag, in
      inventory order. */
  function VolumePaths(lvs: seq<Lv>): (paths: seq<string>)
    ensures |paths| <= |lvs|
    ensures forall p :: p in paths <==> exists i :: 0 <= i < |lvs| && Tagged(lvs[i]) && Decode(lvs[i].name) == p
    decreases |lvs|
  {
    if lvs == [] then []
    else
      var rest := VolumePaths(lvs[1..]);
      assert forall i :: 0 < i < |lvs| ==> lvs[i] == lvs[1..][i - 1];
      (if Tagged(lvs[0]) then [Decode(lvs[0].name)] else []) + rest
  }

  lemma {:induction false} VolumePathsAppend(lvs: seq<Lv>, lv: Lv)
    ensures VolumePaths(lvs + [lv]) == VolumePaths(lvs) + (if Tagged(lv) then [Decode(lv.name)] else [])
    decreases |lvs|
  {
    if lvs == [] {
      assert [] + [lv] == [lv];
    } else {
      var all := lvs + [lv];
      assert all[0] == lvs[0] && all[1..] == lvs[1..] + [lv];
      VolumePathsAppend(lvs[1..], lv);
      var head := if Tagged(lvs[0]) then [Decode(lvs[0].name)] else [];
      assert VolumePaths(all) == head + VolumePaths(lvs[1..] + [lv]);
      assert VolumePaths(lvs) == head + VolumePaths(lvs[1..]);
    }
  }

  /** `is_volume(where)`: the path without trailing separators is among the
      decoded names of the tagged LVs. Every decoded name is absolute, so only
      an absolute path can be a volume. */
  predicate IsVolume(h: Host, where: string)
    ensures IsVolume(h, where) ==> IsAbsolute(where)
  {
    var p := RStrip(where, '/');
    ListedPathsAbsolute(h.lvs, p);
    assert p in VolumePaths(h.lvs) ==> where[..1] == p[..1] == "/";
    p in VolumePaths(h.lvs)
  }

  lemma ListedPathsAbsolute(lvs: seq<Lv>, p: string)
    ensures p in VolumePaths(lvs) ==> |p| > 0 && p[0] == '/'
  {
    if p in VolumePaths(lvs) {
      var i :| 0 <= i < |lvs| && Tagged(lvs[i]) && Decode(lvs[i].name) == p;
    }
  }

  predicate IsAbsolute(where: string) {
    StartsWith(where, "/")
  }

  predicate HasLv(lvs: seq<Lv>, name: string) {
    exists i :: 0 <= i < |lvs| && lvs[i].name == name
  }

  /** The inventory after `lvremove` of every LV with that name. */
  function WithoutLv(lvs: seq<Lv>, name: string): (r: seq<Lv>)
    ensures forall lv :: lv in r <==> lv in lvs && lv.name != name
    ensures !HasLv(r, name)
    ensures !HasLv(lvs, name) ==> r == lvs
    decreases |lvs|
  {
    if lvs == [] then []
    else
      var rest := WithoutLv(lvs[1..], name);
      assert lvs == [lvs[0]] + lvs[1..];
      assert !HasLv(lvs, name) ==> !HasLv(lvs[1..], name) by {
        if HasLv(lvs[1..], name) {
          var i :| 0 <= i < |lvs[1..]| && lvs[1..][i].name == name;
          assert lvs[i + 1].name == name;
        }
      }
      if lvs[0].name == name then rest else [lvs[0]] + rest
  }

  /** The longest LV name LVM accepts. */
  const MaxLvNameLength := 127

  predicate LvNameChar(c: char) {
    || 'a' <= c <= 'z' || 'A' <= c <= 'Z' || '0' <= c <= '9'
    || c == '.' || c == '_' || c == '+' || c == '-'
  }

  /** LVM's rule for a new LV name: not empty, not `.` or `..`, no leading
      dash, only ASCII letters, digits, `.`, `_`, `+` and `-`, and at most
      `MaxLvNameLength` characters. */
  predicate ValidLvName(name: string) {
    && name != [] && name[0] != '-'
    && name != "." && name != ".."
    && LvNameChars(name)
    && |name| <= MaxLvNameLength
  }

  predicate LvNameChars(name: string)
    decreases |name|
  {
    name == [] || (LvNameChar(name[0]) && LvNameChars(name[1..]))
  }

  /** No name LVM accepts holds a separator. */
  lemma {:induction false} LvNameCharsNoSeparator(name: string)
    requires LvNameChars(name)
    ensures '/' !in name
    decreases |name|
  {
    if name != [] {
      LvNameCharsNoSeparator(name[1..]);
      assert name == [name[0]] + name[1..];
    }
  }

  /** The device node of an LV, `/dev/<vg>/<lv>`. */
  function LvPath(vg: string, name: string): string {
    "/dev/" + vg + "/" + name
  }

  // ---------------------------------------------------------------------------
  // The unit-file and systemd side of a volume

  predicate Attached(h: Host, where: string) {
    && MountFile(where) in h.units
    && UnitName(where) in h.enabled
    && UnitName(where) in h.active
  }

  predicate Unmounted(h: Host, where: string) {
    && MountFile(where) !in h.units
    && UnitName(where) !in h.enabled
    && UnitName(where) !in h.active
  }

  /** Every unit file and unit other than those of `where` is as it was. */
  predicate OtherUnitsUnchanged(h: Host, h': Host, where: string) {
    var file, unit := MountFile(where), UnitName(where);
    && h'.units.Keys - {file} == h.units.Keys - {file}
    && (forall f :: f in h.units && f != file ==> f in h'.units && h'.units[f] == h.units[f])
    && h'.enabled - {unit} == h.enabled - {unit}
    && h'.active - {unit} == h.active - {unit}
  }

  function AttachCalls(where: string): seq<Call> {
    [WriteUnitFile(MountFile(where)), DaemonReload, Enable(UnitName(where)), Start(UnitName(where)), ListDir(where)]
  }

  function DetachCalls(where: string): seq<Call> {
    [Disable(UnitName(where)), Stop(UnitName(where)), RemoveUnitFile(MountFile(where)), DaemonReload]
  }

  function ProvisionCalls(vg: string, where: string, size: string): seq<Call> {
    var name := VolName(where);
    [CreateThinvol(name, size), AddTag(name, VolumeTag), Mkfs(LvPath(vg, name)), Populate(where + "/", LvPath(vg, name))]
  }

  // ---------------------------------------------------------------------------
  // Operations

  /** `attach(where)`: write the mount unit for the volume's LV, then reload
      systemd, enable and start the unit, then list the directory. */
  function Attach(h: Host, where: string): (r: Outcome)
    ensures r.Failed? <==> !IsVolume(h, where)
    ensures r.Failed? ==> r == Failed(NotVolume, h)
    ensures r.host.lvs == h.lvs && r.host.dirs == h.dirs && r.host.vg == h.vg
    ensures r.Done? ==> Attached(r.host, where)
    ensures r.Done? ==> r.host.units[MountFile(where)] == MountUnitText(LvPath(h.vg, VolName(where)), where, "discard")
    ensures r.Done? ==> OtherUnitsUnchanged(h, r.host, where)
    ensures r.Done? ==> r.host.log == h.log + AttachCalls(where)
  {
    if !IsVolume(h, where) then Failed(NotVolume, h)
    else
      var file := MountFile(where);
      var unit := UnitName(where);
      var what := LvPath(h.vg, VolName(where));
      Done(h.(units := h.units[file := MountUnitText(what, where, "discard")],
              enabled := h.enabled + {unit},
              active := h.active + {unit},
              log := h.log + [WriteUnitFile(file), DaemonReload, Enable(unit), Start(unit), ListDir(where)]))
  }

  /** `detach(where)`: disable and stop the unit, remove its file, then
      reload systemd. */
  function Detach(h: Host, where: string): (r: Outcome)
    ensures r.Failed? <==> !IsVolume(h, where)
    ensures r.Failed? ==> r == Failed(NotVolume, h)
    ensures r.host.lvs == h.lvs && r.host.dirs == h.dirs && r.host.vg == h.vg
    ensures r.Done? ==> IsVolume(r.host, where) && Unmounted(r.host, where)
    ensures r.Done? ==> OtherUnitsUnchanged(h, r.host, where)
    ensures r.Done? ==> r.host.log == h.log + DetachCalls(where)
  {
    if !IsVolume(h, where) then Failed(NotVolume, h)
    else
      var file := MountFile(where);
      var unit := UnitName(where);
      Done(h.(enabled := h.enabled - {unit},
              active := h.active - {unit},
              units := h.units - {file},
              log := h.log + [Disable(unit), Stop(unit), RemoveUnitFile(file), DaemonReload]))
  }

  /** Steps 2 to 4 of `create`: a thin LV named after the path, tagged as a
      volume, formatted, and filled with the directory's contents. */
  function Provision(h: Host, where: string, size: string): (h': Host)
    ensures IsVolume(h', where) <==> IsVolume(h, where) || Decode(VolName(where)) == RStrip(where, '/')
    ensures h'.vg == h.vg && h'.dirs == h.dirs && h'.lvs == h.lvs + [Lv(VolName(where), size, {VolumeTag})]
    ensures h'.units == h.units && h'.enabled == h.enabled && h'.active == h.active
    ensures h'.log == h.log + ProvisionCalls(h.vg, where, size)
  {
    var name := VolName(where);
    var lv := Lv(name, size, {VolumeTag});
    VolumePathsAppend(h.lvs, lv);
    h.(lvs := h.lvs + [lv],
       log := h.log + [CreateThinvol(name, size), AddTag(name, VolumeTag), Mkfs(LvPath(h.vg, name)),
                       Populate(where + "/", LvPath(h.vg, name))])
  }

  /** The checks `create` makes before touching anything, LVM's own refusal of
      an invalid or taken name included. */
  predicate CreateAllowed(h: Host, where: string) {
    && !IsVolume(h, where)
    && IsAbsolute(where)
    && where in h.dirs
    && ValidLvName(VolName(where))
    && !HasLv(h.lvs, VolName(where))
  }

  /** `create(where, size)` as written: check, provision, then `attach`.
      It completes exactly when its checks pass and the new LV's name decodes
      back to the path; when only the latter fails, `attach` stops it after
      the LV was made. */
  function Create(h: Host, where: string, size: string): (r: Outcome)
    ensures IsVolume(h, where) ==> r == Failed(AlreadyVolume, h)
    ensures !IsVolume(h, where) && !IsAbsolute(where) ==> r == Failed(NotAbsolute, h)
    ensures !IsVolume(h, where) && IsAbsolute(where) && where !in h.dirs ==> r == Failed(NotDirectory, h)
    ensures !IsVolume(h, where) && IsAbsolute(where) && where in h.dirs && !ValidLvName(VolName(where)) ==>
              r == Failed(InvalidLvName, h)
    ensures (&& !IsVolume(h, where) && IsAbsolute(where) && where in h.dirs
             && ValidLvName(VolName(where)) && HasLv(h.lvs, VolName(where))) ==> r == Failed(LvNameTaken, h)
    ensures r.Done? <==> CreateAllowed(h, where) && Decode(VolName(where)) == RStrip(where, '/')
    ensures CreateAllowed(h, where) && r.Failed? ==> r == Failed(NotVolume, Provision(h, where, size))
    ensures r.Done? ==> r.host.lvs == h.lvs + [Lv(VolName(where), size, {VolumeTag})]
    ensures r.Done? ==> r.host.vg == h.vg && r.host.dirs == h.dirs
    ensures r.Done? ==> IsVolume(r.host, where) && Attached(r.host, where)
    ensures r.Done? ==> r.host.units == h.units[MountFile(where) := MountUnitText(LvPath(h.vg, VolName(where)), where, "discard")]
    ensures r.Done? ==> r.host.enabled == h.enabled + {UnitName(where)} && r.host.active == h.active + {UnitName(where)}
    ensures r.Done? ==> OtherUnitsUnchanged(h, r.host, where)
    ensures r.Done? ==> r.host.log == h.log + ProvisionCalls(h.vg, where, size) + AttachCalls(where)
  {
    if IsVolume(h, where) then Failed(AlreadyVolume, h)
    else if !IsAbsolute(where) then Failed(NotAbsolute, h)
    else if where !in h.dirs then Failed(NotDirectory, h)
    else if !ValidLvName(VolName(where)) then Failed(InvalidLvName, h)
    else if HasLv(h.lvs, VolName(where)) then Failed(LvNameTaken, h)
    else Attach(Provision(h, where, size), where)
  }

  /** `create` with the check it evidently needs: a path whose LV name would
      not decode back to it is refused before anything is made. */
  function CreateChecked(h: Host, where: string, size: string): (r: Outcome)
    ensures r.Failed? ==> r.host == h
    ensures r.Done? <==> CreateAllowed(h, where) && RoundTrips(RStrip(where, '/'))
    ensures r.Done? ==> r.host.lvs == h.lvs + [Lv(VolName(where), size, {VolumeTag})]
    ensures r.Done? ==> IsVolume(r.host, where) && Attached(r.host, where)
  {
    VolNameIgnoresTrailingSeparators(where);
    RoundTripIff(RStrip(where, '/'));
    if IsVolume(h, where) then Failed(AlreadyVolume, h)
    else if !IsAbsolute(where) then Failed(NotAbsolute, h)
    else if where !in h.dirs then Failed(NotDirectory, h)
    else if Decode(VolName(where)) != RStrip(where, '/') then Failed(Unrepresentable, h)
    else Create(h, where, size)
  }

  /** `remove(where)`: detach, then remove the LV named after the path. */
  function Remove(h: Host, where: string): (r: Outcome)
    ensures !IsVolume(h, where) ==> r == Failed(NotVolume, h)
    ensures r.Done? <==> IsVolume(h, where) && HasLv(h.lvs, VolName(where))
    ensures r.Done? ==> Unmounted(r.host, where) && OtherUnitsUnchanged(h, r.host, where)
    ensures r.Done? ==> !HasLv(r.host.lvs, VolName(where))
    ensures r.Done? ==> forall lv :: lv in r.host.lvs <==> lv in h.lvs && lv.name != VolName(where)
    ensures r.Done? ==> r.host.lvs == WithoutLv(h.lvs, VolName(where)) && r.host.units == h.units - {MountFile(where)}
    ensures r.Done? ==> r.host.vg == h.vg && r.host.dirs == h.dirs
    ensures r.Done? ==> r.host.log == h.log + DetachCalls(where) + [RemoveLv(VolName(where))]
    ensures r.Failed? && IsVolume(h, where) ==> r == Failed(NoSuchLv, Detach(h, where).host)
  {
    if !IsVolume(h, where) then Failed(NotVolume, h)
    else
      var detached := Detach(h, where).host;
      var name := VolName(where);
      if !HasLv(detached.lvs, name) then Failed(NoSuchLv, detached)
      else Done(detached.(lvs := WithoutLv(detached.lvs, name), log := detached.log + [RemoveLv(name)]))
  }
}
